=== FILE: README.md ===
# goodgame registry — a Dafny model

goodgame (`gg`) keeps a registry of locally installed games. Each game has a
name, a root directory and a save location. The newest version also has an
optional executable and optional per-game run commands. The registry is a
list kept strictly sorted by name and stored as JSON in `games.json`. A name
is found by binary search; a root, save location or current directory is
found by a linear scan. Around the registry the program:

- builds shell commands from templates for running a game and for the cloud
  hooks (`$EXE`, `$GAME`, `$RUN`, `$NAME` substitution);
- names compressed save backups by applying `with_extension("tar.zst")` to
  `<name>-<idx>[-<desc>]`, which cuts at the last '.' unless it is the first character (see "## Findings");
- runs the `add` and `remove` commands as ordered checks followed by a
  registry update;
- offers registered names to the shell completer.

The repository holds three snapshots of the registry, and each is modelled
in its own module:

| module | source | `push` on a registered name |
|---|---|---|
| `Games` | src/games.rs | merges the new record into the old one |
| `LegacyGames` | src/lib.rs | does nothing |
| `ImplGames` | gg-impl/src/lib.rs | does nothing |

Shared modules:

- `NameOrder`: Rust's `Ord for str`, binary search over the sorted name
  list, and the insert, remove and lookup operations the snapshots share.
  They are generic in the record type.
- `Text`: `join`, `str::replace`, `find` + `replace_range`, and the `{:0>3}`
  decimal formatting.
- `Os`: paths as component lists, and commands as program plus arguments.
- `Storage`: the registry file as zero bytes or an array of records.
- `Configuration`: `Config` of src/config.rs and its default.

Command modules:

- `MainCommands` (src/main.rs) drives `LegacyGames`, because src/main.rs
  builds its games with the three-argument `Game::new` of src/lib.rs.
  `BackupNaming` holds its archive-name rule.
- `CliCommands` (gg-cli/src/main.rs) drives `ImplGames`.
- `Completion` is the name filter of src/cli.rs.

Registries are classes: `inner` is the record list, `file` the stored file
and `config` the configuration (`ImplGames` has none). `push`, `delete` and `store` are methods
that update these fields. Lookups and the cloud command builders are functions that
read them; `Games.Games.RunCommand` is a method, because `run_command`
substitutes `$RUN` entry by entry in a loop.

Where the files disagree, the model takes the code at its word, with two
exceptions where the code cannot compile:

- src/main.rs:48 and src/main.rs:99 use the `Result` returned by `get_by_name`
  of src/lib.rs:156 as an `Option`. The model reads it as "found or not"
  (`.Ok?`).
- src/games.rs:165 reads `config.run.commands`, but src/config.rs:13 names
  the field `run_commands`. The model has `Config.run.runCommands`.

The archive name of `backup` follows the code (`MainCommands.BackupArchive`),
not its doc comment; the documented name is modelled beside it
(`MainCommands.BackupArchiveDocumented`), and "## Findings" records where the
two part.

## Model

| member | source | states |
|---|---|---|
| NameOrder.CmpEqual | src/games.rs:284-288 | the name order says `Equal` exactly when the names are the same |
| NameOrder.BeforeTransitive | src/games.rs:284-288 | the name order is transitive, so a sorted name list is ordered pairwise |
| NameOrder.Search | src/games.rs:68 | binary search by name finds an index exactly when the name is present; otherwise it returns the insertion point before which every name is smaller and from which every name is larger |
| NameOrder.InsertIfAbsent | src/lib.rs:124-129 | inserting at the slot binary search reports keeps the list strictly sorted by name |
| NameOrder.RemoveKey | src/lib.rs:131-138 | removing the record binary search finds keeps the list strictly sorted by name |
| NameOrder.InsertIfAbsentPresent | src/lib.rs:124-129 | pushing a registered name leaves the list exactly as it was, even when the other fields differ |
| NameOrder.InsertIfAbsentNew | src/lib.rs:124-129 | pushing a new name inserts it at its sorted slot: length plus one, old records kept in order, multiset grown by the record |
| NameOrder.RemoveKeyCases | src/lib.rs:131-138 | deleting a registered name returns that record and removes exactly it, after which the name is gone; an unknown name returns nothing and changes nothing |
| NameOrder.LookupKey | src/lib.rs:156-163 | lookup by name succeeds exactly when the name is registered and returns a record with that name |
| NameOrder.FindFirst | src/lib.rs:165-168 | `iter().find` returns the first element in list order that satisfies the test, and nothing exactly when none does |
| Text.Join | src/games.rs:146 | `join` of no parts is empty; otherwise the result starts with the first part |
| Text.ReplaceAll | src/games.rs:261-264 | `str::replace` keeps the length when the replacement is as long as the pattern, and never lengthens the string when it is shorter |
| Text.SplitPieces | src/games.rs:264 | cutting a string at every non-overlapping occurrence of the pattern and gluing it back gives the string again, and no piece holds the pattern |
| Text.ReplaceAllJoinsSplit | src/games.rs:264 | `str::replace` is that cut with the pieces glued by the replacement |
| Text.ReplaceAllAfterPlainPrefix | src/games.rs:264 | text in which the pattern cannot start is kept, the occurrence after it is replaced, and the scan resumes after that occurrence |
| Text.ReplaceAllAbsent | src/games.rs:264 | `str::replace` leaves a string without the pattern unchanged |
| Text.Find | src/games.rs:167 | `find` returns the first index where the pattern occurs, and nothing exactly when it does not occur |
| Text.ReplaceFirst | src/games.rs:167-169 | `find` + `replace_range` replaces only the first occurrence; a string without the pattern is unchanged |
| Text.DecimalRoundTrip | src/main.rs:115 | the decimal digits of a number read back as that number |
| Text.PadZeros | src/main.rs:115 | right alignment with '0' fill never cuts the text and pads it to the width with zeros |
| Storage.StoreThenLoad | gg-impl/src/lib.rs:39-59 | an empty registry is stored as a zero-length file and nothing else is; loading a stored file gives back the same records |
| Configuration.Default | src/config.rs:3-22 | the default configuration has an empty shell, no global run commands and no cloud hooks |
| Games.BackupsPath | src/games.rs:234-236 | the backups directory is `gg-saves` directly inside the root |
| Games.MergedWith | src/games.rs:249-257 | every field given as a value replaces the old one, and every field not given keeps the old one |
| Games.Merge | src/games.rs:238-247 | `merge` is `merged_with` with no name, the other record's root and save location, and its executable and run commands |
| Games.MergeFields | src/games.rs:238-247 | merge keeps the name, always takes the new root and save location, and takes the executable and run commands only when set; it is `merged_with` applied to the new record's fields |
| Games.MergeIdempotent | src/games.rs:238-247 | merging the same record twice is merging it once |
| Games.MergedWithNothing | src/games.rs:249-257 | `merged_with` with no value given returns the record unchanged |
| Games.MergedWithTwice | src/games.rs:249-257 | two `merged_with` calls are one call in which, field by field, the later given value wins |
| Games.Pushed | src/games.rs:67-72 | `push` keeps the list strictly sorted by name |
| Games.PushNewName | src/games.rs:67-72 | pushing a new name inserts the record at its sorted slot: length plus one, every old record kept in order |
| Games.PushIgnoresPathCollision | src/games.rs:268-288 | a record with a new name but a registered root or save location is `==` to the old one under `PartialEq`, yet `push` inserts it and both stay registered |
| Games.PushExistingName | src/games.rs:67-72 | pushing a registered name replaces only that record, with the merge of old and new; length, names and all other records are unchanged |
| Games.DeleteThenLookup | src/games.rs:74-81 | after `delete(n)`, `n` is not found; the removed record is named `n` and exists exactly when `n` was registered; an absent name changes nothing |
| Games.ReplaceVars | src/games.rs:259-265 | without an executable, the template cut at every `$GAME` and glued with the name; with one, the template first cut at every `$EXE` and glued with the quoted executable, and that result cut at every `$GAME` and glued with the name |
| Games.ReplaceVarsWithoutExecutable | src/games.rs:259-265 | without an executable `$EXE` is not substituted, so a template without `$GAME` comes back unchanged with `$EXE` still in it |
| Games.ReplaceVarsNoVariables | src/games.rs:259-265 | a template without `$EXE` and `$GAME` is unchanged |
| Games.ReplaceVarsExpandsExecutable | src/games.rs:259-265 | the `$GAME` pass runs after the `$EXE` pass, so a `$GAME` inside the executable path is expanded too: `$EXE` with the executable `$GAME` becomes the game's name in quotes |
| Games.RunTemplates | src/games.rs:163-172 | without per-game run commands, the global ones; with them, one entry per per-game command, in which the first `$RUN` becomes the global run commands joined by `&&` and an entry without `$RUN` is kept as written |
| Games.RunTemplatesEntry | src/games.rs:163-172 | with per-game run commands, each entry keeps its length-indexed place, has only its first `$RUN` replaced by the global run commands joined by `&&`, and is unchanged when it has no `$RUN` |
| Games.Games.Load | src/games.rs:18-53 | a zero-length file loads as the empty registry, any other file as its records; the configuration is the parsed file, or the default one when the file cannot be opened or parsed |
| Games.Games.Store | src/games.rs:56-64 | the file is left empty exactly when the registry is empty, and loading it gives the records back |
| Games.Games.Push | src/games.rs:67-72 | the method keeps the list sorted and leaves it as the pushed list value |
| Games.Games.Delete | src/games.rs:74-81 | the method returns the removed record and leaves exactly the remaining records, still sorted |
| Games.Games.GetByName | src/games.rs:103-110 | found exactly when the name is registered; otherwise an error naming it |
| Games.Games.GetByRoot | src/games.rs:112-115 | the first record in list order with that root, and nothing exactly when no record has it |
| Games.Games.GetBySave | src/games.rs:117-120 | the first record in list order with that save location, and nothing exactly when no record has it |
| Games.Games.GetByCurrentDir | src/games.rs:122-127 | the first record whose root or save location is the current directory; nothing when none is or when the directory cannot be read |
| Games.Games.TryGet | src/games.rs:129-140 | a given name is looked up with no fallback; without one the current-directory game is returned, or an error when there is none |
| Games.Games.CommandsToProcess | src/games.rs:142-153 | nothing exactly when the list is empty; otherwise the configured shell with `-c` and the commands joined by `&&`, with variables substituted only when a game is given |
| Games.Games.CloudInitCommand | src/games.rs:154-156 | nothing exactly when no cloud-init command is configured; otherwise the shell running them with the game's variables substituted |
| Games.Games.CloudCommitCommand | src/games.rs:157-159 | the same for the cloud-commit commands |
| Games.Games.CloudPushCommand | src/games.rs:160-162 | the same for the cloud-push commands |
| Games.Games.DefaultConfigRunsNothing | src/games.rs:18-25 | with the default configuration, which `load` falls back to, no cloud hook is built and a game without its own run commands runs nothing |
| Games.Games.RunCommand | src/games.rs:163-174 | the loop yields the per-game run commands with each first `$RUN` replaced, or the global ones; an empty per-game list yields nothing instead of the global commands |
| LegacyGames.BackupsPath | src/lib.rs:36-38 | the backups directory is `gg-saves` directly inside the root |
| LegacyGames.DefaultConfig | src/lib.rs:63-71 | the default name template is `gg-$GAME` and every default cloud command list is empty |
| LegacyGames.CommandsToProcess | src/lib.rs:182-191 | nothing exactly when the list is empty; otherwise always `sh` with `-c` |
| LegacyGames.CommandsToProcessScript | src/lib.rs:186-189 | the script is the commands joined by ` && `, cut at every `$NAME` and glued with the name template after its `$GAME` is expanded; no piece keeps a `$NAME` |
| LegacyGames.CommandsWithoutNameUntouched | src/lib.rs:186-189 | `$GAME` is expanded only inside the name template: commands without `$NAME` reach the shell as joined, any `$GAME` included |
| LegacyGames.DefaultTemplateExpands | src/lib.rs:188 | the default name template `gg-$GAME` expands to `gg-` followed by the game name, whatever that name holds |
| LegacyGames.DefaultTemplateExample | src/lib.rs:182-191 | with the default template, the command `$NAME` for any game becomes `sh -c gg-<game>` |
| LegacyGames.DefaultConfigHasNoCloudCommands | src/lib.rs:192-212 | with the default configuration every cloud command builder returns nothing |
| LegacyGames.Games.Load | src/lib.rs:99-111 | a zero-length file loads as the empty registry, any other file as its records |
| LegacyGames.Games.Store | src/lib.rs:114-122 | the file is left empty exactly when the registry is empty, and loading it gives the records back |
| LegacyGames.Games.Push | src/lib.rs:124-129 | a registered name leaves the list unchanged; a new one is inserted at its sorted slot and the list stays sorted |
| LegacyGames.Games.Delete | src/lib.rs:131-138 | returns the record exactly when the name is registered, after which it is gone; otherwise nothing changes |
| LegacyGames.Games.GetByName | src/lib.rs:156-163 | succeeds exactly when a record has the name, and errors otherwise |
| LegacyGames.Games.GetByRoot | src/lib.rs:165-168 | the first record in list order with that root |
| LegacyGames.Games.GetBySave | src/lib.rs:170-173 | the first record in list order with that save location |
| LegacyGames.Games.GetByCurrentDir | src/lib.rs:175-180 | the first record whose root or save location is the current directory |
| LegacyGames.Games.CloudInitCommand | src/lib.rs:192-198 | nothing exactly when no cloud-init command is configured; otherwise `sh -c` running the cloud-init commands joined by ` && `, cut at every `$NAME` and glued back with the name template whose `$GAME`s are the game's name |
| LegacyGames.Games.CloudCommitCommand | src/lib.rs:199-205 | the same, built from the cloud-commit commands |
| LegacyGames.Games.CloudPushCommand | src/lib.rs:206-212 | the same, built from the cloud-push commands |
| ImplGames.Games.Load | gg-impl/src/lib.rs:39-45 | a zero-length file is the empty registry, any other file holds its records |
| ImplGames.Games.Store | gg-impl/src/lib.rs:55-64 | the file is left empty exactly when the registry is empty, and loading it gives the records back |
| ImplGames.Games.Push | gg-impl/src/lib.rs:66-71 | a registered name leaves the list unchanged; a new one is inserted at its sorted slot and the list stays sorted |
| ImplGames.Games.Delete | gg-impl/src/lib.rs:73-77 | returns the unique record with the name and removes it, or returns nothing and changes nothing |
| ImplGames.Games.GetByName | gg-impl/src/lib.rs:87-91 | returns a record exactly when the name is registered, and it has that name |
| ImplGames.Games.GetByRoot | gg-impl/src/lib.rs:93-96 | the first record in list order with that root |
| ImplGames.Games.GetBySave | gg-impl/src/lib.rs:98-101 | the first record in list order with that save location |
| ImplGames.Games.GetByCurrentDir | gg-impl/src/lib.rs:103-108 | the first record whose root or save location is the current directory |
| BackupNaming.LastDot | src/main.rs:117 | the last '.' of a file name, and nothing exactly when it has none |
| BackupNaming.FileStem | src/main.rs:117 | `file_stem` is a prefix of the file name: exactly the part before a last '.' at a position other than 0, and the whole name when no '.' follows the first character (a hidden file such as `.hack` has no extension) |
| BackupNaming.WithExtension | src/main.rs:117 | `with_extension` ends in `.<ext>` after a prefix of the file name, and appends `.<ext>` whole to a name with no '.' after its first character (`.hack` becomes `.hack.<ext>`) |
| BackupNaming.WithExtensionAt | src/main.rs:117 | `with_extension` replaces everything after a last '.' that is not the first character |
| BackupNaming.PaddedIndex | src/main.rs:115 | the index is written in at least three decimal digits |
| BackupNaming.PaddedIndexValue | src/main.rs:115 | the padded digits read back as the index and are exactly three below 1000 |
| BackupNaming.PaddedIndexExamples | src/main.rs:115 | 0 gives `000`, 12 gives `012` and 1234 gives `1234` |
| BackupNaming.ArchiveFileNameAsWritten | src/main.rs:115-117 | the archive name the code computes ends in `.tar.zst` after a prefix of `<name>-<idx>[-<desc>]`; it is the documented name whenever the game name has no '.' after its first character and the description has none (`.hack` gives `.hack-000.tar.zst`) |
| BackupNaming.AsWrittenCutsDescriptionAt | src/main.rs:115-117 | as written, a description with a '.' is cut before its last '.', whatever the game name: the archive is named as if the description stopped there |
| BackupNaming.AsWrittenCutsDescription | src/main.rs:115-117 | as written, the description `v1.2` gets the documented archive name of the description `v1` (`Foo-000-v1.tar.zst` for `Foo`) |
| BackupNaming.AsWrittenDropsIndex | src/main.rs:115-117 | as written, a game name with a '.' (not first) loses its index, so every backup gets the same file name |
| BackupNaming.AsWrittenCollision | src/main.rs:115-117 | every backup of `Half.Life` is `Half.tar.zst` |
| BackupNaming.ArchiveFileName | src/main.rs:95-96 | the documented name starts with `<name>-` and ends with `.tar.zst` |
| BackupNaming.ArchiveFileNameInjective | src/main.rs:95-117 | the documented name determines the index and the description, so distinct backups of a game get distinct files |
| BackupNaming.ArchiveFileNameExamples | src/main.rs:95-96 | `Foo` gives `Foo-000.tar.zst`, and index 1 with `pre-patch` gives `Foo-001-pre-patch.tar.zst` |
| MainCommands.AddOutcome | src/main.rs:32-63 | `add` succeeds exactly when both paths canonicalise, the root is a directory distinct from the save location, name, root and save are unused, and the symlink and backups directory exist or can be made; each of the nine error kinds implies that its own check failed and every earlier one passed, so the error reported is that of the first failing check |
| MainCommands.Add | src/main.rs:32-80 | a failing check changes neither registry nor file; success inserts the game under the canonical paths, stores the registry, and keeps roots and save locations unique |
| MainCommands.Remove | src/main.rs:82-88 | an unknown name is a "not managed" error and nothing is stored; a known one is deleted and the registry stored |
| MainCommands.ResolveBackupGame | src/main.rs:98-106 | a registered name picks that game; no name or an unknown one falls back to the current-directory game; an error only when both fail |
| MainCommands.BackupArchive | src/main.rs:98-117 | the archive lies in the game's `gg-saves` directory and its name is `with_extension("tar.zst")` of `<name>-<idx>[-<desc>]` built from the game, the entry count and the description; an unresolved game is the "cannot infer" error of `ResolveBackupGame`, and an unreadable directory a `BackupsUnreadable` error for that directory |
| MainCommands.BackupArchiveOverwrites | src/main.rs:107-117 | every backup of a game called `Half.Life` without a description goes to the same path, `gg-saves/Half.tar.zst`, whatever the entry count |
| MainCommands.BackupArchivesDistinct | src/main.rs:107-117 | when the game's name has no '.' after its first character and the descriptions hold none, backups taken at different entry counts, or with different descriptions, go to different files |
| MainCommands.BackupArchiveDocumented | src/main.rs:95-117 | the archive the doc comment describes: the same directory and errors as `backup`, named `<name>-<idx>[-<desc>].tar.zst` in full |
| MainCommands.BackupArchiveDocumentedDistinct | src/main.rs:95-117 | with the documented name, backups taken at different entry counts, or with different descriptions, always go to different files |
| CliCommands.AddOutcome | gg-cli/src/main.rs:44-68 | `add` succeeds exactly when both probes succeed, name, root and save (as given) are unused and both paths canonicalise; each of the seven error kinds implies that its own step failed and every earlier one passed, so the error reported is that of the first failing step |
| CliCommands.Add | gg-cli/src/main.rs:39-75 | a failure changes neither registry nor file; success inserts the game with the canonical paths and stores |
| CliCommands.GivenPathsChecked | gg-cli/src/main.rs:53-68 | a second spelling of a registered root passes the checks, and the registry then holds two records with the same root |
| CliCommands.Remove | gg-cli/src/main.rs:77-87 | an unknown name errors without storing; a known one is deleted and the registry stored |
| CliCommands.Main | gg-cli/src/main.rs:11-37 | a load failure is the exit error; otherwise a failing command is reported on stderr and the process still exits successfully |
| Completion.AsciiLower | src/cli.rs:160 | only 'A' to 'Z' change, each to its lower-case letter |
| Completion.ZipAgree | src/cli.rs:154-161 | zip + all holds exactly when the two agree, ignoring ASCII case, at every position both have |
| Completion.ZipAgreeIsPrefix | src/cli.rs:155-160 | so the shorter of typed text and name is a case-insensitive prefix of the longer |
| Completion.Matching | src/cli.rs:151-163 | a name is a candidate exactly when it is registered and agrees with the typed text, and it appears as often as in the registry |
| Completion.MatchingKeepsOrder | src/cli.rs:151-163 | the candidates are a subsequence of the names, sorted whenever the names are |
| Completion.Candidates | src/cli.rs:145-163 | with at most two process arguments there are no candidates; otherwise exactly the agreeing registered names, each as often as registered, in registry order |
| Completion.EmptyTypedMatchesAll | src/cli.rs:155-160 | with nothing typed, every registered name is offered |

## Left out

- Reading and writing JSON and the file calls (`open`, `set_len`, `rewind`, serde) are left out. The registry file is `Storage.File`: zero bytes or a list of records. A failing `store` or a malformed file is not modelled.
- `Games.Games.Load`, `LegacyGames.Games.Load` and `ImplGames.Games.Load` do not check that a file holds name-sorted records. The source does not check either. Push, delete and lookup require the sorted order (`Valid()`), which is what every `store` writes.
- The configuration is an input value. Reading `/etc/goodgame/config.json` with `unwrap_or_default` and resolving the data directory from `XDG_DATA_HOME`/`HOME` are environment access, and they are left out. So are `games_path`, `games_file_name` and the `ProjectDirs` of gg-impl.
- The trivial accessors are not modelled separately:
  - `names()` is the `Names` function;
  - `games()` is the `inner` field;
  - `Game::new` is the datatype constructor.
- The `Display` implementations and the `list` command only print the registry as pretty JSON, so they are left out.
- `open` and `open_save` spawn `xdg-open`, and `run_command` and the cloud builders only build commands, so process spawning is left out. Commands are `Os.Command` values.
- The tar/zstd archive writing in `backup` (src/main.rs:118-138) uses foreign libraries and file I/O, so it is left out. So are `restore` (src/main.rs:28) and gg-cli's `backup` (gg-cli/src/main.rs:28), which are `todo!()`.
- `canonicalize`, `is_dir`, `exists`, `try_exists`, `current_dir`, `read_dir().count()`, symlink creation and `create_dir` are parameters. Their effects on disk are not modelled. For example, a symlink made before a later `add` failure stays on disk.
- clap, `game_name_parser`, `game_backup_candidates` (it reads the file system), the `LazyLock` static and build.rs are left out.
- `Games.Merge`: the source merges in place through `&mut self`. The model computes the merged record as a value, which `Push` stores at the same index.
- `ImplGames.Games.GetByName` and the other gg-impl lookups return `&mut Game`. The model returns the record value; no caller in these files writes through the reference.
- `Completion.ZipAgree` compares characters, while the source compares UTF-8 bytes. The two agree on ASCII names and typed text. With non-ASCII text the model compares code points, not bytes.
- `Os.Display` joins the components with '/'. It does not model how `Path` prints a trailing separator or `.` components.
- `MainCommands.BackupArchive` joins the archive name as a single path component. In the source, a '/' in the game name or the description reaches into subdirectories, and a game name starting with '/' makes `Path::join` discard the backups directory, so the archive lands outside `<root>/gg-saves`. The model's ensures that the archive's parent is the backups directory holds only for names without '/'.
- `MainCommands.ResolveBackupGame` and `Games.Games.TryGet` return a plain "cannot infer" error. The message text is not modelled, and neither is the failure of the second `current_dir()` call inside it.
- `println!` and `eprintln!` output is not modelled, except the one stderr line of `CliCommands.Main`.

## Findings

| source | as written | input that shows it | evidently intended | confidence | as-written member | corrected member |
|---|---|---|---|---|---|---|
| src/main.rs:115-117 | `with_extension("tar.zst")` is applied to `<name>-<idx>[-<desc>]` and replaces everything after its last '.' | the game `Half.Life` with no description: backups 0, 1, 2, … are all `Half.tar.zst`, each overwriting the previous one; the description `v1.2` gives `Foo-000-v1.tar.zst` | `<name>-<idx>[-<desc>].tar.zst`, as the doc comment at src/main.rs:95-96 describes, so distinct backups get distinct files | high; not executed | BackupNaming.AsWrittenDropsIndex | MainCommands.BackupArchiveDocumentedDistinct |

=== FILE: backup_naming.dfy ===
/** The name of a backup archive (src/main.rs, `backup`): the game name,
    the number of entries already in the backups directory padded to three
    digits, the optional description, and the `tar.zst` extension. */
module BackupNaming {
  import opened Wrappers
  import Text

  predicate NoDot(s: string) {
    forall i :: 0 <= i < |s| ==> s[i] != '.'
  }

  /** The index of the last '.' in a file name, if any. */
  function LastDot(s: string): (r: Option<nat>)
    ensures r.None? <==> NoDot(s)
    ensures r.Some? ==> r.value < |s| && s[r.value] == '.' && NoDot(s[r.value + 1..])
    decreases |s|
  {
    if s == [] then None
    else if s[|s| - 1] == '.' then Some(|s| - 1)
    else
      var r := LastDot(s[..|s| - 1]);
      if r.Some? then
        assert s[r.value + 1..] == s[..|s| - 1][r.value + 1..] + [s[|s| - 1]];
        r
      else
        r
  }

  /** A '.' after which no other '.' follows is the last one. */
  lemma LastDotIs(s: string, k: nat)
    requires k < |s| && s[k] == '.' && NoDot(s[k + 1..])
    ensures LastDot(s) == Some(k)
  {
  }

  lemma NoDotConcat(a: string, b: string)
    requires NoDot(a) && NoDot(b)
    ensures NoDot(a + b)
  {
    forall i | 0 <= i < |a + b| ensures (a + b)[i] != '.' {
      if i >= |a| {
        assert (a + b)[i] == b[i - |a|];
      }
    }
  }

  /** No '.' after the first character. A leading '.' marks a hidden file
      rather than an extension, so such a name has no extension at all. */
  predicate NoDotAfterFirst(s: string) {
    forall i :: 0 < i < |s| ==> s[i] != '.'
  }

  /** `Path::file_stem`: the file name up to its last '.', unless that '.'
      is the first character (a hidden file has no extension). */
  function FileStem(fileName: string): (stem: string)
    ensures |stem| <= |fileName| && stem == fileName[..|stem|]
    ensures forall k :: 0 < k < |fileName| && fileName[k] == '.' && NoDot(fileName[k + 1..]) ==> stem == fileName[..k]
    ensures NoDotAfterFirst(fileName) ==> stem == fileName
  {
    assert forall k :: 0 < k < |fileName| && fileName[k] == '.' && NoDot(fileName[k + 1..]) ==> LastDot(fileName) == Some(k) by {
      forall k | 0 < k < |fileName| && fileName[k] == '.' && NoDot(fileName[k + 1..]) {
        LastDotIs(fileName, k);
      }
    }
    match LastDot(fileName)
    case Some(k) => if k == 0 then fileName else fileName[..k]
    case None => fileName
  }

  /** `r` is a prefix of `fileName` followed by `.<ext>`: what
      `with_extension` leaves of a file name. */
  predicate StemThenExtension(fileName: string, ext: string, r: string) {
    |ext| + 1 <= |r| <= |fileName| + |ext| + 1 && r == fileName[..|r| - |ext| - 1] + "." + ext
  }

  /** `Path::with_extension` on the last component: the stem, a '.', and the
      new extension, so whatever followed the last '.' is dropped. */
  function WithExtension(fileName: string, ext: string): (r: string)
    ensures StemThenExtension(fileName, ext, r)
    ensures NoDotAfterFirst(fileName) ==> r == fileName + "." + ext
  {
    FileStem(fileName) + "." + ext
  }

  /** `{idx:0>3}`: decimal, left-padded with '0' to three digits, never cut. */
  function PaddedIndex(n: nat): (s: string)
    ensures Text.IsDigits(s) && |s| >= 3
  {
    Text.PadZeros(Text.Decimal(n), 3)
  }

  /** The padded index reads back as the number it was made from, and it is
      exactly three digits as long as the number has at most three. */
  lemma PaddedIndexValue(n: nat)
    ensures Text.DigitsValue(PaddedIndex(n)) == n
    ensures n < 1000 ==> |PaddedIndex(n)| == 3
  {
    var d := Text.Decimal(n);
    Text.DecimalRoundTrip(n);
    var z := if |d| < 3 then 3 - |d| else 0;
    assert PaddedIndex(n) == Text.Zeros(z) + d;
    Text.LeadingZeros(z, d);
    if n < 1000 {
      DecimalShort(n);
    }
  }

  lemma DecimalShort(n: nat)
    requires n < 1000
    ensures |Text.Decimal(n)| <= 3
  {
    if n >= 10 {
      assert |Text.Decimal(n / 10)| <= 2 by {
        if n / 10 >= 10 {
          assert |Text.Decimal(n / 100)| == 1;
        }
      }
    }
  }

  /** A one-digit index gets two leading zeros. */
  lemma PaddedOneDigit(n: nat)
    requires n < 10
    ensures PaddedIndex(n) == ['0', '0', Text.Digit(n)]
  {
    assert Text.Decimal(n) == [Text.Digit(n)];
    assert Text.Zeros(2) == ['0', '0'];
  }

  lemma PaddedIndexExamples()
    ensures PaddedIndex(0) == "000"
    ensures PaddedIndex(12) == "012"
    ensures PaddedIndex(1234) == "1234"
  {
    PaddedOneDigit(0);
    assert Text.Decimal(1) == "1";
    assert Text.Decimal(12) == "12";
    assert Text.Zeros(1) == "0";
    assert Text.Decimal(123) == "123";
    assert Text.Decimal(1234) == "1234";
  }

  /** The description part: `-<description>`, or nothing. */
  function DescPart(desc: Option<string>): (d: string)
    ensures d == [] || d[0] == '-'
  {
    if desc.Some? then "-" + desc.value else ""
  }

  /** `<name>-<index><description part>`, from parts already formatted. */
  function Base(name: string, index: string, descPart: string): string {
    name + "-" + index + descPart
  }

  /** The parts can be read back from an archive name built from them. */
  lemma BaseParts(name: string, index: string, descPart: string)
    ensures var r := Base(name, index, descPart) + ".tar.zst";
      && |r| == |name| + |index| + |descPart| + 9
      && r[..|name| + 1] == name + "-"
      && r[|name| + 1..|r| - 8] == index + descPart
      && r[|r| - 8..] == ".tar.zst"
  {
    var r := Base(name, index, descPart) + ".tar.zst";
    assert r == (name + "-") + (index + descPart) + ".tar.zst";
  }

  /** `{name}-{idx:0>3}{desc}`. */
  function BaseName(name: string, idx: nat, desc: Option<string>): string {
    Base(name, PaddedIndex(idx), DescPart(desc))
  }

  /** The archive name the source computes: the base name passed through
      `with_extension("tar.zst")`. It is the documented name whenever the
      game name has no '.' after its first character and the description
      has none: `.hack` gives `.hack-000.tar.zst`. */
  function ArchiveFileNameAsWritten(name: string, idx: nat, desc: Option<string>): (r: string)
    ensures StemThenExtension(BaseName(name, idx, desc), "tar.zst", r)
    ensures NoDotAfterFirst(name) && (desc.Some? ==> NoDot(desc.value)) ==> r == ArchiveFileName(name, idx, desc)
  {
    var b := BaseName(name, idx, desc);
    assert NoDotAfterFirst(name) && (desc.Some? ==> NoDot(desc.value)) ==> WithExtension(b, "tar.zst") == ArchiveFileName(name, idx, desc) by {
      if NoDotAfterFirst(name) && (desc.Some? ==> NoDot(desc.value)) {
        AsWrittenAppends(name, idx, desc);
      }
    }
    WithExtension(b, "tar.zst")
  }

  /** The archive name the doc comment of `backup` describes: the base name
      with `.tar.zst` appended. */
  function ArchiveFileName(name: string, idx: nat, desc: Option<string>): (r: string)
    ensures |r| >= |name| + 12
    ensures r[..|name| + 1] == name + "-"
    ensures r[|r| - 8..] == ".tar.zst"
  {
    BaseParts(name, PaddedIndex(idx), DescPart(desc));
    BaseName(name, idx, desc) + ".tar.zst"
  }

  /** `with_extension` replaces what follows a last '.' that is not the
      first character. */
  lemma WithExtensionAt(s: string, k: nat, ext: string)
    requires 0 < k < |s| && s[k] == '.' && NoDot(s[k + 1..])
    ensures WithExtension(s, ext) == s[..k] + "." + ext
  {
  }

  lemma DigitsNoDot(s: string)
    requires Text.IsDigits(s)
    ensures NoDot(s)
  {
  }

  lemma WithExtensionCutsDescription(name: string, index: string, desc: string, k: nat, ext: string)
    requires k < |desc| && desc[k] == '.' && NoDot(desc[k + 1..])
    ensures WithExtension(Base(name, index, "-" + desc), ext) == Base(name, index, "-" + desc[..k]) + "." + ext
  {
    var head := name + "-" + index + "-";
    var b := head + desc;
    var m := |head| + k;
    assert Base(name, index, "-" + desc) == b;
    assert Base(name, index, "-" + desc[..k]) == b[..m] by {
      assert b[..m] == head + desc[..k];
    }
    assert b[m] == '.' && NoDot(b[m + 1..]) by {
      assert b[m] == desc[k];
      assert b[m + 1..] == desc[k + 1..];
    }
    WithExtensionAt(b, m, ext);
  }

  lemma DotTarZst(s: string)
    ensures s + "." + "tar.zst" == s + ".tar.zst"
  {
  }

  /** A description with a '.' loses everything from its last '.', whatever
      the game name: the archive is named as if the description stopped
      before that '.'. */
  lemma AsWrittenCutsDescriptionAt(name: string, idx: nat, desc: string, k: nat)
    requires k < |desc| && desc[k] == '.' && NoDot(desc[k + 1..])
    ensures ArchiveFileNameAsWritten(name, idx, Some(desc)) == BaseName(name, idx, Some(desc[..k])) + ".tar.zst"
  {
    WithExtensionCutsDescription(name, PaddedIndex(idx), desc, k, "tar.zst");
    DotTarZst(BaseName(name, idx, Some(desc[..k])));
  }

  /** Concretely, the description `v1.2` gets the archive documented for
      the description `v1`: `Foo-000-v1.tar.zst` for `Foo`. */
  lemma AsWrittenCutsDescription(name: string, idx: nat)
    ensures ArchiveFileNameAsWritten(name, idx, Some("v1.2")) == ArchiveFileName(name, idx, Some("v1"))
  {
    var desc := "v1.2";
    assert desc[2] == '.' && desc[3..] == "2";
    AsWrittenCutsDescriptionAt(name, idx, desc, 2);
    assert desc[..2] == "v1";
  }

  /** Appending a tail without '.' to a name whose last '.' is at `k > 0`
      leaves that '.' the last one, so `with_extension` cuts there. */
  lemma WithExtensionCutsStem(stem: string, k: nat, tail: string, ext: string)
    requires 0 < k < |stem| && stem[k] == '.' && NoDot(stem[k + 1..]) && NoDot(tail)
    ensures WithExtension(stem + tail, ext) == stem[..k] + "." + ext
  {
    var b := stem + tail;
    assert b[k + 1..] == stem[k + 1..] + tail;
    NoDotConcat(stem[k + 1..], tail);
    WithExtensionAt(b, k, ext);
    assert b[..k] == stem[..k];
  }

  /** Without a description, an index without '.' is cut off together
      with whatever follows the name's last '.'. */
  lemma WithExtensionDropsIndex(name: string, k: nat, index: string)
    requires 0 < k < |name| && name[k] == '.' && NoDot(name[k + 1..]) && NoDot(index)
    ensures WithExtension(Base(name, index, ""), "tar.zst") == name[..k] + ".tar.zst"
  {
    var tail := "-" + index;
    assert NoDot(tail) by {
      forall i | 0 <= i < |tail| ensures tail[i] != '.' {
        if i > 0 {
          assert tail[i] == index[i - 1];
        }
      }
    }
    assert Base(name, index, "") == name + tail;
    WithExtensionCutsStem(name, k, tail, "tar.zst");
  }

  /** When the game name holds a '.' (not as its first character) and no
      description is given, the index is dropped with everything after the
      name's last '.': every backup of the game gets the same file name. */
  lemma {:induction false} AsWrittenDropsIndex(name: string, k: nat, idx: nat)
    requires 0 < k < |name| && name[k] == '.' && NoDot(name[k + 1..])
    ensures ArchiveFileNameAsWritten(name, idx, None) == name[..k] + ".tar.zst"
  {
    DigitsNoDot(PaddedIndex(idx));
    WithExtensionDropsIndex(name, k, PaddedIndex(idx));
  }

  /** `Half.Life` has its last '.' at index 4. */
  lemma HalfLifeDot()
    ensures var name := "Half.Life";
      |name| == 9 && name[4] == '.' && NoDot(name[5..]) && name[..4] + ".tar.zst" == "Half.tar.zst"
  {
    var name := "Half.Life";
    assert name[5..] == "Life";
  }

  /** Concretely: every backup of `Half.Life` is `Half.tar.zst`. */
  lemma AsWrittenCollision(idx: nat)
    ensures ArchiveFileNameAsWritten("Half.Life", idx, None) == "Half.tar.zst"
  {
    HalfLifeDot();
    AsWrittenDropsIndex("Half.Life", 4, idx);
  }

  /** With no '.' after the game name's first character and none in the
      description, `with_extension` only appends to the base name. */
  lemma AsWrittenAppends(name: string, idx: nat, desc: Option<string>)
    requires NoDotAfterFirst(name) && (desc.Some? ==> NoDot(desc.value))
    ensures WithExtension(BaseName(name, idx, desc), "tar.zst") == ArchiveFileName(name, idx, desc)
  {
    DigitsNoDot(PaddedIndex(idx));
    if desc.Some? {
      NoDotConcat("-", desc.value);
    }
    var b := BaseName(name, idx, desc);
    BaseNoDotAfterFirst(name, PaddedIndex(idx), DescPart(desc));
    DotTarZst(b);
  }

  /** Appending parts without '.' keeps a name free of '.' after its first
      character. */
  lemma BaseNoDotAfterFirst(name: string, index: string, descPart: string)
    requires NoDotAfterFirst(name) && NoDot(index) && NoDot(descPart)
    ensures NoDotAfterFirst(Base(name, index, descPart))
  {
    var tail := "-" + index + descPart;
    NoDotConcat("-", index);
    NoDotConcat("-" + index, descPart);
    var b := Base(name, index, descPart);
    assert b == name + tail;
    forall i | 0 < i < |b| ensures b[i] != '.' {
      if i >= |name| {
        assert b[i] == tail[i - |name|];
      }
    }
  }

  /** Digits followed by something that is empty or starts with '-' split
      in one way only. */
  lemma DigitsThenDash(p1: string, d1: string, p2: string, d2: string)
    requires Text.IsDigits(p1) && Text.IsDigits(p2)
    requires d1 == [] || d1[0] == '-'
    requires d2 == [] || d2[0] == '-'
    requires p1 + d1 == p2 + d2
    ensures p1 == p2 && d1 == d2
  {
    var s := p1 + d1;
    assert p1 == s[..|p1|] && p2 == s[..|p2|];
  }

  /** The index and description part sit between the `<name>-` prefix and
      the `.tar.zst` suffix. */
  lemma ArchiveFileNameMiddle(name: string, idx: nat, desc: Option<string>)
    ensures var r := ArchiveFileName(name, idx, desc);
      r[|name| + 1..|r| - 8] == PaddedIndex(idx) + DescPart(desc)
  {
    BaseParts(name, PaddedIndex(idx), DescPart(desc));
  }

  /** Distinct backups of one game get distinct archive names: the index and
      the description can both be read back from the name. */
  lemma ArchiveFileNameInjective(name: string, i: nat, d: Option<string>, j: nat, e: Option<string>)
    requires ArchiveFileName(name, i, d) == ArchiveFileName(name, j, e)
    ensures i == j && d == e
  {
    ArchiveFileNameMiddle(name, i, d);
    ArchiveFileNameMiddle(name, j, e);
    DigitsThenDash(PaddedIndex(i), DescPart(d), PaddedIndex(j), DescPart(e));
    PaddedIndexValue(i);
    PaddedIndexValue(j);
    if d.Some? && e.Some? {
      assert d.value == DescPart(d)[1..] && e.value == DescPart(e)[1..];
    }
  }

  lemma BaseExamples()
    ensures Base("Foo", "000", "") + ".tar.zst" == "Foo-000.tar.zst"
    ensures Base("Foo", "001", "-pre-patch") + ".tar.zst" == "Foo-001-pre-patch.tar.zst"
  {
  }

  lemma ArchiveFileNameExamples()
    ensures ArchiveFileName("Foo", 0, None) == "Foo-000.tar.zst"
    ensures ArchiveFileName("Foo", 1, Some("pre-patch")) == "Foo-001-pre-patch.tar.zst"
  {
    PaddedOneDigit(0);
    PaddedOneDigit(1);
    assert DescPart(Some("pre-patch")) == "-pre-patch";
    BaseExamples();
  }
}

=== FILE: cli_commands.dfy ===
/** The commands of the older `gg` binary (gg-cli/src/main.rs) over the
    registry of gg-impl/src/lib.rs: `add`, whose duplicate checks look at
    the paths as given while the record stores their canonical forms,
    `remove`, and `main`, which reports a failed command on stderr but
    still exits successfully. */
module CliCommands {
  import opened Wrappers
  import NameOrder
  import Os
  import Storage
  import ImplGames

  datatype AddError =
    | RootUnreadable
    | SaveUnreadable
    | NameTaken
    | RootTaken
    | SaveTaken
    | RootUnavailable
    | SaveUnavailable

  /** What the file system answers while `add` runs: whether `try_exists`
      fails with an I/O error, and what `canonicalize` returns. */
  datatype FileSystem = FileSystem(
    rootProbeFails: bool,
    saveProbeFails: bool,
    canonicalRoot: Option<Os.Path>,
    canonicalSave: Option<Os.Path>)

  /** Both probes succeed and neither the name nor the root or save
      location, as given, is registered yet. */
  predicate Unregistered(gs: seq<ImplGames.Game>, name: string, root: Os.Path, save: Os.Path, fs: FileSystem) {
    && !fs.rootProbeFails && !fs.saveProbeFails
    && name !in ImplGames.Names(gs)
    && (forall j :: 0 <= j < |gs| ==> gs[j].root != root)
    && (forall j :: 0 <= j < |gs| ==> gs[j].saveLocation != save)
  }

  /** The answer of `add`: the first step that fails, in source order, or
      success. Each error kind implies that its own step failed and every
      earlier one passed, so the kind reported is the first failing one. */
  function AddOutcome(games: ImplGames.Games, name: string, root: Os.Path, save: Os.Path, fs: FileSystem)
    : (r: Outcome<AddError>)
    reads games
    requires games.Valid()
    ensures r.Pass? <==>
      Unregistered(games.inner, name, root, save, fs) && fs.canonicalRoot.Some? && fs.canonicalSave.Some?
    ensures r == Fail(RootUnreadable) <==> fs.rootProbeFails
    ensures r == Fail(SaveUnreadable) ==> !fs.rootProbeFails && fs.saveProbeFails
    ensures r == Fail(NameTaken) ==> !fs.rootProbeFails && !fs.saveProbeFails && name in ImplGames.Names(games.inner)
    ensures r == Fail(RootTaken) ==>
      && !fs.rootProbeFails && !fs.saveProbeFails && name !in ImplGames.Names(games.inner)
      && exists j :: 0 <= j < |games.inner| && games.inner[j].root == root
    ensures r == Fail(SaveTaken) ==>
      && !fs.rootProbeFails && !fs.saveProbeFails && name !in ImplGames.Names(games.inner)
      && (forall j :: 0 <= j < |games.inner| ==> games.inner[j].root != root)
      && exists j :: 0 <= j < |games.inner| && games.inner[j].saveLocation == save
    ensures r == Fail(RootUnavailable) ==>
      Unregistered(games.inner, name, root, save, fs) && fs.canonicalRoot.None?
    ensures r == Fail(SaveUnavailable) ==>
      Unregistered(games.inner, name, root, save, fs) && fs.canonicalRoot.Some? && fs.canonicalSave.None?
  {
    if fs.rootProbeFails then Fail(RootUnreadable)
    else if fs.saveProbeFails then Fail(SaveUnreadable)
    else if games.GetByName(name).Some? then Fail(NameTaken)
    else if games.GetByRoot(root).Some? then Fail(RootTaken)
    else if games.GetBySave(save).Some? then Fail(SaveTaken)
    else if fs.canonicalRoot.None? then Fail(RootUnavailable)
    else if fs.canonicalSave.None? then Fail(SaveUnavailable)
    else Pass
  }

  /** `add`: probe both paths, reject a registered name, root or save
      location (compared as given), canonicalise, push and store. A failure
      leaves the registry and its file untouched. */
  method Add(games: ImplGames.Games, name: string, root: Os.Path, save: Os.Path, fs: FileSystem)
    returns (r: Outcome<AddError>)
    requires games.Valid()
    modifies games
    ensures games.Valid()
    ensures r == old(AddOutcome(games, name, root, save, fs))
    ensures r.Fail? ==> games.inner == old(games.inner) && games.file == old(games.file)
    ensures r.Pass? ==>
      var game := ImplGames.Game(name, fs.canonicalRoot.value, fs.canonicalSave.value);
      && games.inner == NameOrder.InsertIfAbsent(old(games.inner), ImplGames.NameOf, game)
      && |games.inner| == |old(games.inner)| + 1 && game in games.inner
      && games.file == Storage.Stored(games.inner)
  {
    if fs.rootProbeFails {
      return Fail(RootUnreadable);
    }
    if fs.saveProbeFails {
      return Fail(SaveUnreadable);
    }
    if games.GetByName(name).Some? {
      return Fail(NameTaken);
    }
    if games.GetByRoot(root).Some? {
      return Fail(RootTaken);
    }
    if games.GetBySave(save).Some? {
      return Fail(SaveTaken);
    }
    if fs.canonicalRoot.None? {
      return Fail(RootUnavailable);
    }
    if fs.canonicalSave.None? {
      return Fail(SaveUnavailable);
    }
    games.Push(ImplGames.Game(name, fs.canonicalRoot.value, fs.canonicalSave.value));
    games.Store();
    r := Pass;
  }

  /** Inserting a game whose root is already registered leaves two records
      with that root. */
  lemma InsertSharedRoot(s: seq<ImplGames.Game>, game: ImplGames.Game, k: nat)
    requires NameOrder.StrictlySorted(ImplGames.Names(s)) && game.name !in ImplGames.Names(s)
    requires k < |s| && s[k].root == game.root
    ensures var r := NameOrder.InsertIfAbsent(s, ImplGames.NameOf, game);
      exists a, b :: 0 <= a < b < |r| && r[a].root == r[b].root
  {
    NameOrder.InsertIfAbsentNew(s, ImplGames.NameOf, game);
    var r := NameOrder.InsertIfAbsent(s, ImplGames.NameOf, game);
    var i :| 0 <= i <= |s| && r == s[..i] + [game] + s[i..];
    if k < i {
      assert r[k] == s[k] && r[i] == game;
    } else {
      assert r[i] == game && r[k + 1] == s[k];
    }
  }

  /** Because the checks see the paths as given, a second spelling of a
      registered root (say a relative one) passes them even though it
      canonicalises to that root; the game is then registered twice under
      the same root. */
  lemma GivenPathsChecked(games: ImplGames.Games, name: string, root: Os.Path, save: Os.Path, fs: FileSystem, k: nat)
    requires games.Valid() && k < |games.inner|
    requires !fs.rootProbeFails && !fs.saveProbeFails
    requires name !in ImplGames.Names(games.inner)
    requires forall j :: 0 <= j < |games.inner| ==> games.inner[j].root != root && games.inner[j].saveLocation != save
    requires fs.canonicalRoot == Some(games.inner[k].root) && fs.canonicalSave.Some?
    ensures AddOutcome(games, name, root, save, fs) == Pass
    ensures var r := NameOrder.InsertIfAbsent(games.inner, ImplGames.NameOf,
                       ImplGames.Game(name, fs.canonicalRoot.value, fs.canonicalSave.value));
      exists a, b :: 0 <= a < b < |r| && r[a].root == r[b].root
  {
    InsertSharedRoot(games.inner, ImplGames.Game(name, fs.canonicalRoot.value, fs.canonicalSave.value), k);
  }

  datatype RemoveError = NotManaged(name: string)

  /** `remove`: an unknown name is an error and nothing is stored; a known
      one is deleted and the registry stored. */
  method Remove(games: ImplGames.Games, name: string) returns (r: Outcome<RemoveError>)
    requires games.Valid()
    modifies games
    ensures games.Valid()
    ensures r.Fail? <==> name !in old(ImplGames.Names(games.inner))
    ensures r.Fail? ==> r.error == NotManaged(name) && games.inner == old(games.inner) && games.file == old(games.file)
    ensures r.Pass? ==>
      && games.inner == NameOrder.RemoveKey(old(games.inner), ImplGames.NameOf, name).rest
      && |games.inner| == |old(games.inner)| - 1
      && name !in ImplGames.Names(games.inner)
      && games.file == Storage.Stored(games.inner)
  {
    NameOrder.RemoveKeyCases(games.inner, ImplGames.NameOf, name);
    var removed := games.Delete(name);
    if removed.None? {
      return Fail(NotManaged(name));
    }
    games.Store();
    r := Pass;
  }

  /** How the process ends: its exit result and the lines `main` itself
      writes with `eprintln!` (the report the runtime prints for an error
      returned from `main` is not among them). */
  datatype Exit<E> = Exit(status: Outcome<E>, stderr: seq<E>)

  /** `main`: a registry that cannot be loaded ends the process with that
      error before any command runs; otherwise the command's error, if any,
      is written to stderr and the process still exits successfully. */
  function Main<E>(load: Outcome<E>, command: Outcome<E>): (x: Exit<E>)
    ensures x.status.Fail? <==> load.Fail?
    ensures load.Fail? ==> x.status == load && x.stderr == []
    ensures load.Pass? ==> (x.stderr == [] <==> command.Pass?)
    ensures load.Pass? && command.Fail? ==> x.stderr == [command.error]
  {
    match load
    case Fail(e) => Exit(Fail(e), [])
    case Pass =>
      match command
      case Fail(e) => Exit(Pass, [e])
      case Pass => Exit(Pass, [])
  }
}

=== FILE: completion.dfy ===
/** The candidate filter of the game-name completer (src/cli.rs,
    `game_name_completer`): registered names that agree with the typed text,
    ignoring ASCII case, at every position both have. */
module Completion {
  import NameOrder

  /** `u8::to_ascii_lowercase`: 'A'..'Z' become 'a'..'z', all else stays. */
  function AsciiLower(c: char): (l: char)
    ensures 'A' <= c <= 'Z' ==> l as int == c as int + 32
    ensures !('A' <= c <= 'Z') ==> l == c
  {
    if 'A' <= c <= 'Z' then (c as int + 32) as char else c
  }

  /** `a` and `b` agree, ignoring ASCII case, at every position both have. */
  predicate AgreeUpToShorter(a: string, b: string) {
    forall i :: 0 <= i < |a| && i < |b| ==> AsciiLower(a[i]) == AsciiLower(b[i])
  }

  /** Agreement up to the shorter length is agreement at the first position
      and agreement of the two tails. */
  lemma AgreeShift(a: string, b: string)
    requires a != [] && b != []
    ensures AgreeUpToShorter(a, b) <==> AsciiLower(a[0]) == AsciiLower(b[0]) && AgreeUpToShorter(a[1..], b[1..])
  {
    if AsciiLower(a[0]) == AsciiLower(b[0]) && AgreeUpToShorter(a[1..], b[1..]) {
      forall i | 0 <= i < |a| && i < |b| ensures AsciiLower(a[i]) == AsciiLower(b[i]) {
        if i > 0 {
          assert a[1..][i - 1] == a[i] && b[1..][i - 1] == b[i];
        }
      }
    }
    if AgreeUpToShorter(a, b) {
      forall i | 0 <= i < |a| - 1 && i < |b| - 1 ensures AsciiLower(a[1..][i]) == AsciiLower(b[1..][i]) {
        assert a[1..][i] == a[i + 1] && b[1..][i] == b[i + 1];
      }
    }
  }

  /** `a.iter().zip(b).all(|(x, y)| x.to_ascii_lowercase() == y.to_ascii_lowercase())`:
      the zip stops at the shorter of the two, so the check is agreement at
      every position both have. */
  predicate ZipAgree(a: string, b: string): (r: bool)
    ensures r <==> AgreeUpToShorter(a, b)
    decreases |a|
  {
    if a == [] || b == [] then true
    else
      AgreeShift(a, b);
      AsciiLower(a[0]) == AsciiLower(b[0]) && ZipAgree(a[1..], b[1..])
  }

  /** So one of the two is a case-insensitive prefix of the other: empty
      typed text matches every name, and a name shorter than the typed text
      matches when it is a prefix of it. */
  lemma ZipAgreeIsPrefix(typed: string, name: string)
    ensures ZipAgree(typed, name) <==>
      if |typed| <= |name| then forall i :: 0 <= i < |typed| ==> AsciiLower(typed[i]) == AsciiLower(name[i])
      else forall i :: 0 <= i < |name| ==> AsciiLower(name[i]) == AsciiLower(typed[i])
  {
  }

  /** The names that pass the filter, in the order given. */
  function Matching(typed: string, names: seq<string>): (r: seq<string>)
    ensures |r| <= |names|
    ensures forall x :: x in r <==> x in names && ZipAgree(typed, x)
    ensures forall x :: multiset(r)[x] == if ZipAgree(typed, x) then multiset(names)[x] else 0
    decreases |names|
  {
    if names == [] then []
    else
      assert names == [names[0]] + names[1..];
      if ZipAgree(typed, names[0]) then [names[0]] + Matching(typed, names[1..])
      else Matching(typed, names[1..])
  }

  /** `r` is obtained from `s` by dropping elements. */
  ghost predicate SubsequenceOf(r: seq<string>, s: seq<string>)
    decreases |s|
  {
    if r == [] then true
    else if s == [] then false
    else if r[0] == s[0] then SubsequenceOf(r[1..], s[1..])
    else SubsequenceOf(r, s[1..])
  }

  /** The tail of a sorted list is sorted and comes after its head. */
  lemma SortedTail(names: seq<string>)
    requires names != [] && NameOrder.StrictlySorted(names)
    ensures NameOrder.StrictlySorted(names[1..])
    ensures forall y :: y in names[1..] ==> NameOrder.Before(names[0], y)
  {
    forall y | y in names[1..] ensures NameOrder.Before(names[0], y) {
      var j :| 0 <= j < |names[1..]| && names[1..][j] == y;
      assert names[j + 1] == y;
    }
  }

  /** A sorted list stays sorted under a head that comes before all of it. */
  lemma SortedCons(x: string, rest: seq<string>)
    requires NameOrder.StrictlySorted(rest)
    requires forall y :: y in rest ==> NameOrder.Before(x, y)
    ensures NameOrder.StrictlySorted([x] + rest)
  {
    var r := [x] + rest;
    forall a, b | 0 <= a < b < |r| ensures NameOrder.Before(r[a], r[b]) {
      assert r[b] == rest[b - 1];
      if a > 0 {
        assert r[a] == rest[a - 1];
      }
    }
  }

  /** The candidates keep the registry's order: a subsequence of the names,
      and sorted whenever the names are. */
  lemma {:induction false} MatchingKeepsOrder(typed: string, names: seq<string>)
    ensures SubsequenceOf(Matching(typed, names), names)
    ensures NameOrder.StrictlySorted(names) ==> NameOrder.StrictlySorted(Matching(typed, names))
    decreases |names|
  {
    if names != [] {
      var rest := Matching(typed, names[1..]);
      if NameOrder.StrictlySorted(names) {
        SortedTail(names);
      }
      MatchingKeepsOrder(typed, names[1..]);
      if ZipAgree(typed, names[0]) {
        var r := [names[0]] + rest;
        assert r[1..] == rest;
        if NameOrder.StrictlySorted(names) {
          SortedCons(names[0], rest);
        }
      } else if rest != [] {
        assert rest[0] != names[0] by {
          assert rest[0] in rest;
        }
      }
    }
  }

  /** The completer's `inner`: no candidates while at most two process
      arguments are present, otherwise the matching registered names. */
  function Candidates(argCount: nat, typed: string, names: seq<string>): (r: seq<string>)
    ensures argCount <= 2 ==> r == []
    ensures argCount > 2 ==> forall x :: x in r <==> x in names && ZipAgree(typed, x)
    ensures argCount > 2 ==> SubsequenceOf(r, names)
    ensures argCount > 2 ==> forall x :: multiset(r)[x] == if ZipAgree(typed, x) then multiset(names)[x] else 0
    ensures NameOrder.StrictlySorted(names) ==> NameOrder.StrictlySorted(r)
  {
    if argCount <= 2 then []
    else
      MatchingKeepsOrder(typed, names);
      Matching(typed, names)
  }

  /** With nothing typed yet every registered name is offered. */
  lemma {:induction false} EmptyTypedMatchesAll(names: seq<string>)
    ensures Matching("", names) == names
    decreases |names|
  {
    if names != [] {
      EmptyTypedMatchesAll(names[1..]);
    }
  }
}

=== FILE: configuration.dfy ===
/** The system configuration read by the newest registry: the shell that
    runs commands, the global run commands and the cloud hook commands.
    Loading it from disk is not modelled; it is an input value. */
module Configuration {

  datatype Run = Run(runCommands: seq<string>)

  datatype Backup = Backup(
    cloudInitCommands: seq<string>,
    cloudCommitCommands: seq<string>,
    cloudPushCommands: seq<string>)

  datatype Config = Config(shell: string, run: Run, backup: Backup)

  /** `Config::default()`, used when the configuration file cannot be
      opened or parsed: an empty shell, no global run commands and no cloud
      hooks. */
  function Default(): (c: Config)
    ensures c.shell == [] && c.run.runCommands == []
    ensures c.backup.cloudInitCommands == [] && c.backup.cloudCommitCommands == [] && c.backup.cloudPushCommands == []
  {
    Config("", Run([]), Backup([], [], []))
  }
}

=== FILE: games.dfy ===
/** The newest registry (src/games.rs): a name-sorted list of games whose
    `push` merges into an existing record with the same name, plus the
    builders of the shell commands for running a game and for the cloud
    hooks, with `$EXE`, `$GAME` and `$RUN` substitution. */
module Games {
  import opened Wrappers
  import NameOrder
  import Text
  import Os
  import Storage
  import opened Configuration

  datatype Game = Game(
    name: string,
    root: Os.Path,
    saveLocation: Os.Path,
    executable: Option<Os.Path>,
    runCommands: Option<seq<string>>)

  function NameOf(g: Game): string {
    g.name
  }

  function Names(gs: seq<Game>): seq<string> {
    NameOrder.Keys(gs, NameOf)
  }

  /** `PartialEq for Game`: the same name OR the same root OR the same save
      location. `push` never consults it; see PushIgnoresPathCollision. */
  predicate SameGame(a: Game, b: Game) {
    a.name == b.name || a.root == b.root || a.saveLocation == b.saveLocation
  }

  /** `backups_path`: the `gg-saves` directory directly inside the root. */
  function BackupsPath(g: Game): (p: Os.Path)
    ensures p.parts != [] && Os.Parent(p) == g.root && Os.FileName(p) == "gg-saves"
  {
    Os.JoinInside(g.root, "gg-saves");
    Os.Join(g.root, "gg-saves")
  }

  /** `Game::merged_with`: every field given as `Some` replaces the old one. */
  function MergedWith(
    g: Game,
    name: Option<string>,
    root: Option<Os.Path>,
    saveLocation: Option<Os.Path>,
    executable: Option<Os.Path>,
    runCommands: Option<seq<string>>): (r: Game)
    ensures name.Some? ==> r.name == name.value
    ensures name.None? ==> r.name == g.name
    ensures root.Some? ==> r.root == root.value
    ensures root.None? ==> r.root == g.root
    ensures saveLocation.Some? ==> r.saveLocation == saveLocation.value
    ensures saveLocation.None? ==> r.saveLocation == g.saveLocation
    ensures executable.Some? ==> r.executable == executable
    ensures executable.None? ==> r.executable == g.executable
    ensures runCommands.Some? ==> r.runCommands == runCommands
    ensures runCommands.None? ==> r.runCommands == g.runCommands
  {
    Game(
      name.UnwrapOr(g.name),
      root.UnwrapOr(g.root),
      saveLocation.UnwrapOr(g.saveLocation),
      Or(executable, g.executable),
      Or(runCommands, g.runCommands))
  }

  /** `Game::merge`: the record `g` after taking in `other`. */
  function Merge(g: Game, other: Game): (r: Game)
    ensures r == MergedWith(g, None, Some(other.root), Some(other.saveLocation), other.executable, other.runCommands)
  {
    g.(root := other.root,
       saveLocation := other.saveLocation,
       executable := Or(other.executable, g.executable),
       runCommands := Or(other.runCommands, g.runCommands))
  }

  /** Merging `other` keeps the name, always takes its root and save
      location, and takes its executable and run commands only when set:
      it is `merged_with` applied to `other`'s fields, name excepted. */
  lemma MergeFields(g: Game, other: Game)
    ensures var m := Merge(g, other);
      && m.name == g.name
      && m.root == other.root && m.saveLocation == other.saveLocation
      && (other.executable.Some? ==> m.executable == other.executable)
      && (other.executable.None? ==> m.executable == g.executable)
      && (other.runCommands.Some? ==> m.runCommands == other.runCommands)
      && (other.runCommands.None? ==> m.runCommands == g.runCommands)
      && m == MergedWith(g, None, Some(other.root), Some(other.saveLocation), other.executable, other.runCommands)
  {
  }

  /** Merging the same record twice is merging it once. */
  lemma MergeIdempotent(g: Game, other: Game)
    ensures Merge(Merge(g, other), other) == Merge(g, other)
  {
  }

  /** With nothing given, `merged_with` returns the record unchanged. */
  lemma MergedWithNothing(g: Game)
    ensures MergedWith(g, None, None, None, None, None) == g
  {
  }

  /** Two `merged_with` calls in a row are one call where, field by field,
      the later `Some` wins and an unset field falls back to the earlier. */
  lemma MergedWithTwice(
    g: Game,
    n1: Option<string>, r1: Option<Os.Path>, s1: Option<Os.Path>, e1: Option<Os.Path>, c1: Option<seq<string>>,
    n2: Option<string>, r2: Option<Os.Path>, s2: Option<Os.Path>, e2: Option<Os.Path>, c2: Option<seq<string>>)
    ensures MergedWith(MergedWith(g, n1, r1, s1, e1, c1), n2, r2, s2, e2, c2)
         == MergedWith(g, Or(n2, n1), Or(r2, r1), Or(s2, s1), Or(e2, e1), Or(c2, c1))
  {
  }

  /** `push` on a list value: binary search with `Ord for Game`, which
      compares names only; merge on a hit, insert at the sorted place on a
      miss. */
  function Pushed(gs: seq<Game>, g: Game): (r: seq<Game>)
    requires NameOrder.StrictlySorted(Names(gs))
    ensures NameOrder.StrictlySorted(Names(r))
  {
    match NameOrder.Search(Names(gs), g.name)
    case Found(i) =>
      NameOrder.KeysUpdate(gs, NameOf, i, Merge(gs[i], g));
      gs[i := Merge(gs[i], g)]
    case Vacant(_) => NameOrder.InsertIfAbsent(gs, NameOf, g)
  }

  /** Pushing a new name inserts the record at its sorted position: one
      more record, every old one kept in order. */
  lemma PushNewName(gs: seq<Game>, g: Game)
    requires NameOrder.StrictlySorted(Names(gs)) && g.name !in Names(gs)
    ensures var r := Pushed(gs, g);
      && |r| == |gs| + 1
      && (exists i :: 0 <= i <= |gs| && r == gs[..i] + [g] + gs[i..] && NameOrder.SlotFor(Names(gs), g.name, i))
      && multiset(r) == multiset(gs) + multiset{g}
  {
    NameOrder.InsertIfAbsentNew(gs, NameOf, g);
  }

  /** A record under a new name is inserted even when an existing record
      has its root or save location, i.e. is `==` to it under
      `PartialEq for Game`: afterwards both are registered. */
  lemma PushIgnoresPathCollision(gs: seq<Game>, g: Game, h: Game)
    requires NameOrder.StrictlySorted(Names(gs)) && g.name !in Names(gs)
    requires h in gs && (h.root == g.root || h.saveLocation == g.saveLocation)
    ensures SameGame(g, h)
    ensures var r := Pushed(gs, g); g in r && h in r && |r| == |gs| + 1
  {
    PushNewName(gs, g);
    var r := Pushed(gs, g);
    assert g in multiset(r) && h in multiset(r);
  }

  /** Pushing a registered name changes only that record, which becomes the
      merge of old and new; the length, all names and all other records
      stay as they were. */
  lemma PushExistingName(gs: seq<Game>, g: Game)
    requires NameOrder.StrictlySorted(Names(gs)) && g.name in Names(gs)
    ensures var r := Pushed(gs, g);
      && |r| == |gs| && Names(r) == Names(gs)
      && forall i :: 0 <= i < |gs| ==> r[i] == if gs[i].name == g.name then Merge(gs[i], g) else gs[i]
  {
    var ks := Names(gs);
    var k := NameOrder.Search(ks, g.name).index;
    forall i | 0 <= i < |gs| && i != k ensures gs[i].name != g.name {
      NameOrder.SortedDistinct(ks, i, k);
    }
  }

  /** Removing a name: `delete` on a list value. */
  function Deleted(gs: seq<Game>, name: string): NameOrder.Removal<Game>
    requires NameOrder.StrictlySorted(Names(gs))
  {
    NameOrder.RemoveKey(gs, NameOf, name)
  }

  /** After `delete(n)` the name `n` is no longer found, and the records
      that remain are the old ones minus the one returned, in order. */
  lemma DeleteThenLookup(gs: seq<Game>, name: string)
    requires NameOrder.StrictlySorted(Names(gs))
    ensures var d := Deleted(gs, name);
      && NameOrder.StrictlySorted(Names(d.rest))
      && NameOrder.LookupKey(d.rest, NameOf, name).None?
      && (d.removed.Some? <==> name in Names(gs))
      && (d.removed.Some? ==> d.removed.value.name == name && |d.rest| == |gs| - 1)
      && (d.removed.None? ==> d.rest == gs)
  {
    NameOrder.RemoveKeyCases(gs, NameOf, name);
  }

  /** `replace_vars`: first every `$EXE` becomes the quoted executable, and
      only when one is set; then every `$GAME` becomes the name, including a
      `$GAME` that the executable path brought in. */
  function ReplaceVars(g: Game, template: string): (r: string)
    ensures g.executable.None? ==> r == Text.Join(Text.Split(template, "$GAME"), g.name)
    ensures g.executable.Some? ==>
      var quoted := "'" + Os.Display(g.executable.value) + "'";
      r == Text.Join(Text.Split(Text.Join(Text.Split(template, "$EXE"), quoted), "$GAME"), g.name)
  {
    var withExe :=
      if g.executable.Some? then
        var quoted := "'" + Os.Display(g.executable.value) + "'";
        Text.ReplaceAllJoinsSplit(template, "$EXE", quoted);
        Text.ReplaceAll(template, "$EXE", quoted)
      else template;
    Text.ReplaceAllJoinsSplit(withExe, "$GAME", g.name);
    Text.ReplaceAll(withExe, "$GAME", g.name)
  }

  /** Without an executable, `$EXE` is not substituted: a template holding
      no `$GAME` comes back as it was, `$EXE` included. */
  lemma ReplaceVarsWithoutExecutable(g: Game, template: string)
    requires g.executable.None? && !Text.Contains(template, "$GAME")
    ensures ReplaceVars(g, template) == template
  {
    Text.ReplaceAllAbsent(template, "$GAME", g.name);
  }

  /** A template without either variable is left untouched. */
  lemma ReplaceVarsNoVariables(g: Game, template: string)
    requires !Text.Contains(template, "$EXE") && !Text.Contains(template, "$GAME")
    ensures ReplaceVars(g, template) == template
  {
    if g.executable.Some? {
      Text.ReplaceAllAbsent(template, "$EXE", "'" + Os.Display(g.executable.value) + "'");
    }
    Text.ReplaceAllAbsent(template, "$GAME", g.name);
  }

  /** The second pass also expands a `$GAME` that came from the executable:
      `$EXE` with the executable `$GAME` becomes the game's name in quotes. */
  lemma ReplaceVarsExpandsExecutable(name: string, root: Os.Path, save: Os.Path)
    ensures ReplaceVars(Game(name, root, save, Some(Os.Path(false, ["$GAME"])), None), "$EXE") == "'" + name + "'"
  {
    assert Os.Display(Os.Path(false, ["$GAME"])) == "$GAME";
    var exe := "'" + "$GAME" + "'";
    Text.ReplaceAllAfterPlainPrefix("", "$EXE", "", exe);
    assert "" + "$EXE" + "" == "$EXE";
    assert Text.ReplaceAll("", "$EXE", exe) == "";
    assert "" + exe + "" == exe;
    Text.ReplaceAllAfterPlainPrefix("'", "$GAME", "'", name);
    assert Text.ReplaceAll("'", "$GAME", name) == "'";
  }

  /** The per-game run commands after `$RUN` substitution: with an override,
      only the first `$RUN` of each entry becomes the global run commands
      joined by `&&`; without one, the global run commands. */
  function RunTemplates(config: Config, g: Game): (r: seq<string>)
    ensures g.runCommands.None? ==> r == config.run.runCommands
    ensures g.runCommands.Some? ==> |r| == |g.runCommands.value|
    ensures g.runCommands.Some? ==> forall k :: 0 <= k < |r| && !Text.Contains(g.runCommands.value[k], "$RUN") ==>
      r[k] == g.runCommands.value[k]
    ensures g.runCommands.Some? ==> forall k, i: nat :: 0 <= k < |r| && Text.FirstMatch(g.runCommands.value[k], "$RUN", i) ==>
      r[k] == g.runCommands.value[k][..i] + Text.Join(config.run.runCommands, "&&") + g.runCommands.value[k][i + 4..]
  {
    match g.runCommands
    case None => config.run.runCommands
    case Some(cs) =>
      var globalRun := Text.Join(config.run.runCommands, "&&");
      Text.ReplaceFirstEach(cs, "$RUN", globalRun)
  }

  /** Each override entry has its first `$RUN` replaced and any later one
      kept; an entry without `$RUN` is kept as written. */
  lemma RunTemplatesEntry(config: Config, g: Game, k: nat, i: nat)
    requires g.runCommands.Some? && k < |g.runCommands.value|
    ensures var c := g.runCommands.value[k];
      var globalRun := Text.Join(config.run.runCommands, "&&");
      && |RunTemplates(config, g)| == |g.runCommands.value|
      && (!Text.Contains(c, "$RUN") ==> RunTemplates(config, g)[k] == c)
      && (Text.FirstMatch(c, "$RUN", i) ==> RunTemplates(config, g)[k] == c[..i] + globalRun + c[i + 4..])
  {
  }

  datatype LookupError = NoSuchGame(name: string) | CannotInfer(currentDir: Option<Os.Path>)

  /** The registry object: the sorted records, the file they are stored in
      and the configuration loaded with them. */
  class Games {
    var inner: seq<Game>
    var file: Storage.File<Game>
    const config: Config

    ghost predicate Valid()
      reads this
    {
      NameOrder.StrictlySorted(Names(inner))
    }

    /** `load`, given the registry file and the configuration file's
        contents when it could be opened and parsed; otherwise the default
        configuration is used. */
    constructor Load(file: Storage.File<Game>, parsed: Option<Config>)
      ensures inner == Storage.Loaded(file) && this.file == file
      ensures parsed.Some? ==> config == parsed.value
      ensures parsed.None? ==> config == Configuration.Default()
    {
      inner := Storage.Loaded(file);
      this.file := file;
      config := if parsed.Some? then parsed.value else Configuration.Default();
    }

    /** `store`: truncate the file and, unless empty, write the records. */
    method Store()
      modifies this`file
      ensures file == Storage.Stored(inner)
      ensures file.ZeroLength? <==> inner == []
      ensures Storage.Loaded(file) == inner
    {
      file := Storage.Stored(inner);
    }

    /** `push`: merge into the record with the same name or insert. */
    method Push(game: Game)
      requires Valid()
      modifies this`inner
      ensures Valid() && inner == Pushed(old(inner), game)
    {
      match NameOrder.Search(Names(inner), game.name)
      case Found(i) =>
        inner := inner[i := Merge(inner[i], game)];
      case Vacant(i) =>
        assert Pushed(inner, game) == inner[..i] + [game] + inner[i..];
        inner := inner[..i] + [game] + inner[i..];
    }

    /** `delete`: remove and return the record with this name, if any. */
    method Delete(name: string) returns (removed: Option<Game>)
      requires Valid()
      modifies this`inner
      ensures Valid() && Deleted(old(inner), name) == NameOrder.Removal(removed, inner)
    {
      match NameOrder.Search(Names(inner), name)
      case Found(i) =>
        removed := Some(inner[i]);
        inner := inner[..i] + inner[i + 1..];
      case Vacant(_) =>
        removed := None;
    }

    /** `get_by_name`: binary search; an error when the name is unknown. */
    function GetByName(name: string): (r: Result<Game, LookupError>)
      reads this
      requires Valid()
      ensures r.Ok? <==> name in Names(inner)
      ensures r.Ok? ==> r.value in inner && r.value.name == name
      ensures r.Err? ==> r.error == NoSuchGame(name)
    {
      match NameOrder.LookupKey(inner, NameOf, name)
      case Some(g) => Ok(g)
      case None => Err(NoSuchGame(name))
    }

    /** `get_by_root`: the first record, in list order, with this root. */
    function GetByRoot(path: Os.Path): (r: Option<Game>)
      reads this
      ensures r.None? <==> forall j :: 0 <= j < |inner| ==> inner[j].root != path
      ensures r.Some? ==> (exists i :: 0 <= i < |inner| && inner[i] == r.value && r.value.root == path
                             && forall j :: 0 <= j < i ==> inner[j].root != path)
    {
      NameOrder.FindFirst(inner, (g: Game) => g.root == path)
    }

    /** `get_by_save`: the first record, in list order, with this save location. */
    function GetBySave(path: Os.Path): (r: Option<Game>)
      reads this
      ensures r.None? <==> forall j :: 0 <= j < |inner| ==> inner[j].saveLocation != path
      ensures r.Some? ==> (exists i :: 0 <= i < |inner| && inner[i] == r.value && r.value.saveLocation == path
                             && forall j :: 0 <= j < i ==> inner[j].saveLocation != path)
    {
      NameOrder.FindFirst(inner, (g: Game) => g.saveLocation == path)
    }

    /** `get_by_current_dir`: the first record whose root or save location
        is the current directory; nothing when that cannot be read. */
    function GetByCurrentDir(currentDir: Option<Os.Path>): (r: Option<Game>)
      reads this
      ensures currentDir.None? ==> r.None?
      ensures currentDir.Some? ==>
        var d := currentDir.value;
        && (r.None? <==> forall j :: 0 <= j < |inner| ==> inner[j].root != d && inner[j].saveLocation != d)
        && (r.Some? ==> exists i :: 0 <= i < |inner| && inner[i] == r.value
                          && (r.value.root == d || r.value.saveLocation == d)
                          && forall j :: 0 <= j < i ==> inner[j].root != d && inner[j].saveLocation != d)
    {
      match currentDir
      case None => None
      case Some(d) => NameOrder.FindFirst(inner, (g: Game) => g.root == d || g.saveLocation == d)
    }

    /** `try_get`: by name when one is given, with no fallback; otherwise
        the game of the current directory, or an error naming it. */
    function TryGet(name: Option<string>, currentDir: Option<Os.Path>): (r: Result<Game, LookupError>)
      reads this
      requires Valid()
      ensures name.Some? ==> r == GetByName(name.value)
      ensures name.None? ==> (r.Ok? <==> GetByCurrentDir(currentDir).Some?)
      ensures name.None? && r.Ok? ==> GetByCurrentDir(currentDir) == Some(r.value)
      ensures name.None? && r.Err? ==> r.error == CannotInfer(currentDir)
    {
      match name
      case Some(n) => GetByName(n)
      case None =>
        match GetByCurrentDir(currentDir)
        case Some(g) => Ok(g)
        case None => Err(CannotInfer(currentDir))
    }

    /** `commands_to_process`: nothing for an empty list; otherwise the
        configured shell with `-c` and the commands joined by `&&` (no
        spaces), variables substituted only when a game is given. */
    function CommandsToProcess(cmds: seq<string>, game: Option<Game>): (r: Option<Os.Command>)
      ensures r.None? <==> cmds == []
      ensures r.Some? ==> r.value.program == config.shell && |r.value.args| == 2 && r.value.args[0] == "-c"
      ensures r.Some? && game.None? ==> r.value.args[1] == Text.Join(cmds, "&&")
      ensures r.Some? && game.Some? ==> r.value.args[1] == ReplaceVars(game.value, Text.Join(cmds, "&&"))
    {
      if cmds == [] then None
      else
        var joined := Text.Join(cmds, "&&");
        var script := if game.Some? then ReplaceVars(game.value, joined) else joined;
        Some(Os.Command(config.shell, ["-c", script]))
    }

    /** `cloud_init_command`: the cloud-init hook for a game, if configured. */
    function CloudInitCommand(game: Game): (r: Option<Os.Command>)
      ensures r.None? <==> config.backup.cloudInitCommands == []
      ensures r.Some? ==> r.value == Os.Command(config.shell, ["-c", ReplaceVars(game, Text.Join(config.backup.cloudInitCommands, "&&"))])
    {
      CommandsToProcess(config.backup.cloudInitCommands, Some(game))
    }

    /** `cloud_commit_command`: the cloud-commit hook for a game, if configured. */
    function CloudCommitCommand(game: Game): (r: Option<Os.Command>)
      ensures r.None? <==> config.backup.cloudCommitCommands == []
      ensures r.Some? ==> r.value == Os.Command(config.shell, ["-c", ReplaceVars(game, Text.Join(config.backup.cloudCommitCommands, "&&"))])
    {
      CommandsToProcess(config.backup.cloudCommitCommands, Some(game))
    }

    /** `cloud_push_command`: the cloud-push hook for a game, if configured. */
    function CloudPushCommand(game: Game): (r: Option<Os.Command>)
      ensures r.None? <==> config.backup.cloudPushCommands == []
      ensures r.Some? ==> r.value == Os.Command(config.shell, ["-c", ReplaceVars(game, Text.Join(config.backup.cloudPushCommands, "&&"))])
    {
      CommandsToProcess(config.backup.cloudPushCommands, Some(game))
    }

    /** Without a readable configuration file no hook and no global run
        command is configured: every cloud hook is absent, and a game
        without run commands of its own has nothing to run. */
    lemma DefaultConfigRunsNothing(game: Game)
      requires config == Configuration.Default()
      ensures CloudInitCommand(game).None? && CloudCommitCommand(game).None? && CloudPushCommand(game).None?
      ensures game.runCommands.None? ==> CommandsToProcess(RunTemplates(config, game), Some(game)).None?
    {
    }

    /** `run_command`: the game's run commands with each entry's first `$RUN`
        replaced in place, or the global run commands when the game has none;
        an empty override yields no command rather than the global one. */
    method RunCommand(game: Game) returns (r: Option<Os.Command>)
      ensures r == CommandsToProcess(RunTemplates(config, game), Some(game))
      ensures game.runCommands == Some([]) ==> r.None?
      ensures game.runCommands.None? ==> (r.None? <==> config.run.runCommands == [])
    {
      var cmds: seq<string>;
      match game.runCommands {
        case None =>
          cmds := config.run.runCommands;
        case Some(cs) =>
          var globalRun := Text.Join(config.run.runCommands, "&&");
          cmds := cs;
          var k := 0;
          while k < |cmds|
            invariant 0 <= k <= |cmds| == |cs|
            invariant forall j :: 0 <= j < k ==> cmds[j] == Text.ReplaceFirst(cs[j], "$RUN", globalRun)
            invariant forall j :: k <= j < |cmds| ==> cmds[j] == cs[j]
          {
            match Text.Find(cmds[k], "$RUN") {
              case Some(i) =>
                cmds := cmds[k := cmds[k][..i] + globalRun + cmds[k][i + 4..]];
              case None =>
            }
            k := k + 1;
          }
          assert cmds == RunTemplates(config, game);
      }
      r := CommandsToProcess(cmds, Some(game));
    }
  }
}

=== FILE: impl_games.dfy ===
/** The registry of the `goodgame-impl` crate (gg-impl/src/lib.rs): the
    same name-sorted list with an insert-if-absent `push`, lookups that
    answer with an optional record, and no configuration. */
module ImplGames {
  import opened Wrappers
  import NameOrder
  import Os
  import Storage

  datatype Game = Game(name: string, root: Os.Path, saveLocation: Os.Path)

  function NameOf(g: Game): string {
    g.name
  }

  function Names(gs: seq<Game>): seq<string> {
    NameOrder.Keys(gs, NameOf)
  }

  class Games {
    var inner: seq<Game>
    var file: Storage.File<Game>

    ghost predicate Valid()
      reads this
    {
      NameOrder.StrictlySorted(Names(inner))
    }

    /** `load`: a zero-length file is the empty registry, any other file
        holds the records. */
    constructor Load(file: Storage.File<Game>)
      ensures inner == Storage.Loaded(file) && this.file == file
      ensures file.ZeroLength? ==> inner == []
    {
      inner := Storage.Loaded(file);
      this.file := file;
    }

    /** `store`: the file is truncated and left empty for an empty registry;
        loading it again gives the same records. */
    method Store()
      modifies this`file
      ensures file == Storage.Stored(inner)
      ensures file.ZeroLength? <==> inner == []
      ensures Storage.Loaded(file) == inner
    {
      file := Storage.Stored(inner);
    }

    /** `push`: insert at the sorted place unless the name is registered. */
    method Push(game: Game)
      requires Valid()
      modifies this`inner
      ensures Valid() && inner == NameOrder.InsertIfAbsent(old(inner), NameOf, game)
      ensures game.name in Names(old(inner)) ==> inner == old(inner)
      ensures game.name !in Names(old(inner)) ==> |inner| == |old(inner)| + 1 && game in inner
    {
      match NameOrder.Search(Names(inner), game.name)
      case Found(_) =>
      case Vacant(i) =>
        inner := inner[..i] + [game] + inner[i..];
        assert inner[i] == game;
    }

    /** `delete`: remove and return the record with this name, if any. */
    method Delete(name: string) returns (removed: Option<Game>)
      requires Valid()
      modifies this`inner
      ensures Valid() && NameOrder.RemoveKey(old(inner), NameOf, name) == NameOrder.Removal(removed, inner)
      ensures removed.Some? <==> name in Names(old(inner))
      ensures removed.None? ==> inner == old(inner)
      ensures removed.Some? ==> removed.value.name == name && name !in Names(inner)
    {
      NameOrder.RemoveKeyCases(old(inner), NameOf, name);
      match NameOrder.Search(Names(inner), name)
      case Found(i) =>
        removed := Some(inner[i]);
        inner := inner[..i] + inner[i + 1..];
      case Vacant(_) =>
        removed := None;
    }

    /** `get_by_name`: binary search by name. */
    function GetByName(name: string): (r: Option<Game>)
      reads this
      requires Valid()
      ensures r.Some? <==> name in Names(inner)
      ensures r.Some? ==> r.value in inner && r.value.name == name
    {
      NameOrder.LookupKey(inner, NameOf, name)
    }

    /** `get_by_root`: the first record, in list order, with this root. */
    function GetByRoot(path: Os.Path): (r: Option<Game>)
      reads this
      ensures r.None? <==> forall j :: 0 <= j < |inner| ==> inner[j].root != path
      ensures r.Some? ==> (exists i :: 0 <= i < |inner| && inner[i] == r.value && r.value.root == path
                             && forall j :: 0 <= j < i ==> inner[j].root != path)
    {
      NameOrder.FindFirst(inner, (g: Game) => g.root == path)
    }

    /** `get_by_save`: the first record, in list order, with this save location. */
    function GetBySave(path: Os.Path): (r: Option<Game>)
      reads this
      ensures r.None? <==> forall j :: 0 <= j < |inner| ==> inner[j].saveLocation != path
      ensures r.Some? ==> (exists i :: 0 <= i < |inner| && inner[i] == r.value && r.value.saveLocation == path
                             && forall j :: 0 <= j < i ==> inner[j].saveLocation != path)
    {
      NameOrder.FindFirst(inner, (g: Game) => g.saveLocation == path)
    }

    /** `get_by_current_dir`: the first record whose root or save location
        is the current directory; nothing when that cannot be read. */
    function GetByCurrentDir(currentDir: Option<Os.Path>): (r: Option<Game>)
      reads this
      ensures currentDir.None? ==> r.None?
      ensures currentDir.Some? ==>
        var d := currentDir.value;
        && (r.None? <==> forall j :: 0 <= j < |inner| ==> inner[j].root != d && inner[j].saveLocation != d)
        && (r.Some? ==> exists i :: 0 <= i < |inner| && inner[i] == r.value
                          && (r.value.root == d || r.value.saveLocation == d)
                          && forall j :: 0 <= j < i ==> inner[j].root != d && inner[j].saveLocation != d)
    {
      match currentDir
      case None => None
      case Some(d) => NameOrder.FindFirst(inner, (g: Game) => g.root == d || g.saveLocation == d)
    }
  }
}

=== FILE: legacy_games.dfy ===
/** The library registry (src/lib.rs): three-field games, a `push` that
    ignores an already registered name, and cloud hook commands whose
    `$NAME` is the cloud name template with `$GAME` expanded. */
module LegacyGames {
  import opened Wrappers
  import NameOrder
  import Text
  import Os
  import Storage

  datatype Game = Game(name: string, root: Os.Path, saveLocation: Os.Path)

  function NameOf(g: Game): string {
    g.name
  }

  function Names(gs: seq<Game>): seq<string> {
    NameOrder.Keys(gs, NameOf)
  }

  /** `backups_path`: the `gg-saves` directory directly inside the root. */
  function BackupsPath(g: Game): (p: Os.Path)
    ensures p.parts != [] && Os.Parent(p) == g.root && Os.FileName(p) == "gg-saves"
  {
    Os.JoinInside(g.root, "gg-saves");
    Os.Join(g.root, "gg-saves")
  }

  datatype Backup = Backup(
    cloudNameTemplate: string,
    cloudInitCommands: seq<string>,
    cloudCommitCommands: seq<string>,
    cloudPushCommands: seq<string>)

  datatype Config = Config(backup: Backup)

  /** `Backup::default()` (and so `Config::default()`): the template
      `gg-$GAME` and no cloud commands. */
  function DefaultConfig(): (c: Config)
    ensures c.backup.cloudNameTemplate == "gg-$GAME"
    ensures c.backup.cloudInitCommands == [] && c.backup.cloudCommitCommands == [] && c.backup.cloudPushCommands == []
  {
    Config(Backup("gg-$GAME", [], [], []))
  }

  /** `commands_to_process`: nothing for an empty list; otherwise `sh -c`
      with the commands joined by ` && `, in which every `$NAME` becomes the
      name template with every `$GAME` replaced by the game's name. */
  function CommandsToProcess(cmds: seq<string>, template: string, game: string): (r: Option<Os.Command>)
    ensures r.None? <==> cmds == []
    ensures r.Some? ==> r.value.program == "sh" && |r.value.args| == 2 && r.value.args[0] == "-c"
  {
    if cmds == [] then None
    else
      var cloudName := Text.ReplaceAll(template, "$GAME", game);
      Some(Os.Command("sh", ["-c", Text.ReplaceAll(Text.Join(cmds, " && "), "$NAME", cloudName)]))
  }

  /** The script is the joined commands cut at every `$NAME` and glued back
      with the expanded name template; no piece between the cuts holds a
      `$NAME`, so every occurrence is substituted. */
  lemma CommandsToProcessScript(cmds: seq<string>, template: string, game: string)
    requires cmds != []
    ensures var pieces := Text.Split(Text.Join(cmds, " && "), "$NAME");
      && Text.Join(pieces, "$NAME") == Text.Join(cmds, " && ")
      && (forall k :: 0 <= k < |pieces| ==> !Text.Contains(pieces[k], "$NAME"))
      && CommandsToProcess(cmds, template, game).value.args[1]
         == Text.Join(pieces, Text.ReplaceAll(template, "$GAME", game))
  {
    var joined := Text.Join(cmds, " && ");
    Text.SplitPieces(joined, "$NAME");
    Text.ReplaceAllJoinsSplit(joined, "$NAME", Text.ReplaceAll(template, "$GAME", game));
  }

  /** The script a hook runs, described by cutting rather than replacing:
      the ` && `-joined commands cut at every `$NAME` and glued back with
      the name template whose `$GAME`s are the game's name. */
  function HookScript(cmds: seq<string>, template: string, game: string): string {
    Text.Join(Text.Split(Text.Join(cmds, " && "), "$NAME"), Text.ReplaceAll(template, "$GAME", game))
  }

  /** `$GAME` is only expanded inside the name template: commands without
      `$NAME` reach the shell as joined, any `$GAME` in them untouched. */
  lemma CommandsWithoutNameUntouched(cmds: seq<string>, template: string, game: string)
    requires cmds != [] && !Text.Contains(Text.Join(cmds, " && "), "$NAME")
    ensures CommandsToProcess(cmds, template, game).value.args[1] == Text.Join(cmds, " && ")
  {
    Text.ReplaceAllAbsent(Text.Join(cmds, " && "), "$NAME", Text.ReplaceAll(template, "$GAME", game));
  }

  /** The default name template expands to `gg-<game>`. */
  lemma DefaultTemplateExpands(game: string)
    ensures Text.ReplaceAll("gg-$GAME", "$GAME", game) == "gg-" + game
  {
    assert "gg-$GAME" == "gg-" + "$GAME" + "";
    Text.ReplaceAllAfterPlainPrefix("gg-", "$GAME", "", game);
    assert Text.ReplaceAll("", "$GAME", game) == "";
    assert "gg-" + game + "" == "gg-" + game;
  }

  /** With the default template a single `$NAME` command for any game
      becomes `sh -c gg-<game>`; the game name is inserted as it is, even
      when it holds `$GAME` or `$NAME` itself. */
  lemma DefaultTemplateExample(game: string)
    ensures CommandsToProcess(["$NAME"], DefaultConfig().backup.cloudNameTemplate, game)
         == Some(Os.Command("sh", ["-c", "gg-" + game]))
  {
    var name := "gg-" + game;
    DefaultTemplateExpands(game);
    assert Text.Join(["$NAME"], " && ") == "$NAME";
    Text.ReplaceAllLeadingMatch("$NAME", "", name);
    assert "$NAME" + "" == "$NAME";
    assert Text.ReplaceAll("", "$NAME", name) == "";
    assert name + "" == name;
  }

  /** The registry object of the library snapshot. */
  class Games {
    var inner: seq<Game>
    var file: Storage.File<Game>
    const config: Config

    ghost predicate Valid()
      reads this
    {
      NameOrder.StrictlySorted(Names(inner))
    }

    /** `load`, given the registry file and the configuration it read. */
    constructor Load(file: Storage.File<Game>, config: Config)
      ensures inner == Storage.Loaded(file) && this.file == file && this.config == config
    {
      inner := Storage.Loaded(file);
      this.file := file;
      this.config := config;
    }

    /** `store`: truncate the file and, unless empty, write the records. */
    method Store()
      modifies this`file
      ensures file == Storage.Stored(inner)
      ensures file.ZeroLength? <==> inner == []
      ensures Storage.Loaded(file) == inner
    {
      file := Storage.Stored(inner);
    }

    /** `push`: insert at the sorted place unless the name is registered. */
    method Push(game: Game)
      requires Valid()
      modifies this`inner
      ensures Valid() && inner == NameOrder.InsertIfAbsent(old(inner), NameOf, game)
      ensures game.name in Names(old(inner)) ==> inner == old(inner)
      ensures game.name !in Names(old(inner)) ==> |inner| == |old(inner)| + 1 && game in inner
    {
      match NameOrder.Search(Names(inner), game.name)
      case Found(_) =>
      case Vacant(i) =>
        inner := inner[..i] + [game] + inner[i..];
        assert inner[i] == game;
    }

    /** `delete`: remove and return the record with this name, if any. */
    method Delete(name: string) returns (removed: Option<Game>)
      requires Valid()
      modifies this`inner
      ensures Valid() && NameOrder.RemoveKey(old(inner), NameOf, name) == NameOrder.Removal(removed, inner)
      ensures removed.Some? <==> name in Names(old(inner))
      ensures removed.None? ==> inner == old(inner)
      ensures removed.Some? ==> removed.value.name == name && name !in Names(inner)
    {
      NameOrder.RemoveKeyCases(old(inner), NameOf, name);
      match NameOrder.Search(Names(inner), name)
      case Found(i) =>
        removed := Some(inner[i]);
        inner := inner[..i] + inner[i + 1..];
      case Vacant(_) =>
        removed := None;
    }

    /** `get_by_name`: binary search; an error when the name is unknown. */
    function GetByName(name: string): (r: Result<Game, string>)
      reads this
      requires Valid()
      ensures r.Ok? <==> name in Names(inner)
      ensures r.Ok? ==> r.value in inner && r.value.name == name
      ensures r.Err? ==> r.error == name
    {
      match NameOrder.LookupKey(inner, NameOf, name)
      case Some(g) => Ok(g)
      case None => Err(name)
    }

    /** `get_by_root`: the first record, in list order, with this root. */
    function GetByRoot(path: Os.Path): (r: Option<Game>)
      reads this
      ensures r.None? <==> forall j :: 0 <= j < |inner| ==> inner[j].root != path
      ensures r.Some? ==> (exists i :: 0 <= i < |inner| && inner[i] == r.value && r.value.root == path
                             && forall j :: 0 <= j < i ==> inner[j].root != path)
    {
      NameOrder.FindFirst(inner, (g: Game) => g.root == path)
    }

    /** `get_by_save`: the first record, in list order, with this save location. */
    function GetBySave(path: Os.Path): (r: Option<Game>)
      reads this
      ensures r.None? <==> forall j :: 0 <= j < |inner| ==> inner[j].saveLocation != path
      ensures r.Some? ==> (exists i :: 0 <= i < |inner| && inner[i] == r.value && r.value.saveLocation == path
                             && forall j :: 0 <= j < i ==> inner[j].saveLocation != path)
    {
      NameOrder.FindFirst(inner, (g: Game) => g.saveLocation == path)
    }

    /** `get_by_current_dir`: the first record whose root or save location
        is the current directory; nothing when that cannot be read. */
    function GetByCurrentDir(currentDir: Option<Os.Path>): (r: Option<Game>)
      reads this
      ensures currentDir.None? ==> r.None?
      ensures currentDir.Some? ==>
        var d := currentDir.value;
        && (r.None? <==> forall j :: 0 <= j < |inner| ==> inner[j].root != d && inner[j].saveLocation != d)
        && (r.Some? ==> exists i :: 0 <= i < |inner| && inner[i] == r.value
                          && (r.value.root == d || r.value.saveLocation == d)
                          && forall j :: 0 <= j < i ==> inner[j].root != d && inner[j].saveLocation != d)
    {
      match currentDir
      case None => None
      case Some(d) => NameOrder.FindFirst(inner, (g: Game) => g.root == d || g.saveLocation == d)
    }

    /** `cloud_init_command`: the cloud-init hook for a game, if configured. */
    function CloudInitCommand(game: Game): (r: Option<Os.Command>)
      ensures r.None? <==> config.backup.cloudInitCommands == []
      ensures r.Some? ==>
        r.value == Os.Command("sh", ["-c", HookScript(config.backup.cloudInitCommands, config.backup.cloudNameTemplate, game.name)])
    {
      if config.backup.cloudInitCommands == [] then None
      else
        CommandsToProcessScript(config.backup.cloudInitCommands, config.backup.cloudNameTemplate, game.name);
        CommandsToProcess(config.backup.cloudInitCommands, config.backup.cloudNameTemplate, game.name)
    }

    /** `cloud_commit_command`: the cloud-commit hook for a game, if configured. */
    function CloudCommitCommand(game: Game): (r: Option<Os.Command>)
      ensures r.None? <==> config.backup.cloudCommitCommands == []
      ensures r.Some? ==>
        r.value == Os.Command("sh", ["-c", HookScript(config.backup.cloudCommitCommands, config.backup.cloudNameTemplate, game.name)])
    {
      if config.backup.cloudCommitCommands == [] then None
      else
        CommandsToProcessScript(config.backup.cloudCommitCommands, config.backup.cloudNameTemplate, game.name);
        CommandsToProcess(config.backup.cloudCommitCommands, config.backup.cloudNameTemplate, game.name)
    }

    /** `cloud_push_command`: the cloud-push hook for a game, if configured. */
    function CloudPushCommand(game: Game): (r: Option<Os.Command>)
      ensures r.None? <==> config.backup.cloudPushCommands == []
      ensures r.Some? ==>
        r.value == Os.Command("sh", ["-c", HookScript(config.backup.cloudPushCommands, config.backup.cloudNameTemplate, game.name)])
    {
      if config.backup.cloudPushCommands == [] then None
      else
        CommandsToProcessScript(config.backup.cloudPushCommands, config.backup.cloudNameTemplate, game.name);
        CommandsToProcess(config.backup.cloudPushCommands, config.backup.cloudNameTemplate, game.name)
    }
  }

  /** With the default configuration no cloud hook is ever built. */
  lemma DefaultConfigHasNoCloudCommands(games: Games, game: Game)
    requires games.config == DefaultConfig()
    ensures games.CloudInitCommand(game).None?
    ensures games.CloudCommitCommand(game).None?
    ensures games.CloudPushCommand(game).None?
  {
  }
}

=== FILE: main_commands.dfy ===
/** The commands of the `gg` binary (src/main.rs) over the library registry
    of src/lib.rs: `add` with its ordered checks, `remove`, and the choice
    of game and archive path in `backup`. Results of file-system calls
    (`canonicalize`, `is_dir`, `exists`, symlink and directory creation,
    the entry count of the backups directory, the current directory) are
    parameters. */
module MainCommands {
  import opened Wrappers
  import NameOrder
  import Os
  import Storage
  import LegacyGames
  import BackupNaming

  datatype AddError =
    | RootUnavailable
    | SaveUnavailable
    | RootNotDirectory
    | SameLocations
    | NameTaken
    | RootTaken
    | SaveTaken
    | SymlinkFailed
    | BackupsDirFailed

  /** What the file system answers while `add` runs. */
  datatype FileSystem = FileSystem(
    canonicalRoot: Option<Os.Path>,
    canonicalSave: Option<Os.Path>,
    rootIsDir: bool,
    symlinkPresent: bool,
    symlinkFails: bool,
    backupsPresent: bool,
    backupsDirFails: bool)

  /** No two registered games share a root or a save location. */
  ghost predicate DistinctPaths(gs: seq<LegacyGames.Game>) {
    forall i, j :: 0 <= i < j < |gs| ==> gs[i].root != gs[j].root && gs[i].saveLocation != gs[j].saveLocation
  }

  lemma InsertFreshKeepsDistinct(s: seq<LegacyGames.Game>, g: LegacyGames.Game, k: nat)
    requires DistinctPaths(s) && k <= |s|
    requires forall j :: 0 <= j < |s| ==> s[j].root != g.root && s[j].saveLocation != g.saveLocation
    ensures DistinctPaths(s[..k] + [g] + s[k..])
  {
    var r := s[..k] + [g] + s[k..];
    forall a, b | 0 <= a < b < |r| ensures r[a].root != r[b].root && r[a].saveLocation != r[b].saveLocation {
      if b < k {
        assert r[a] == s[a] && r[b] == s[b];
      } else if a > k {
        assert r[a] == s[a - 1] && r[b] == s[b - 1];
      } else if a == k {
        assert r[b] == s[b - 1];
      } else if b == k {
        assert r[a] == s[a];
      } else {
        assert r[a] == s[a] && r[b] == s[b - 1];
      }
    }
  }

  /** Registering a game under a fresh name, root and save location keeps
      roots and save locations unique. */
  lemma PushFreshKeepsDistinct(s: seq<LegacyGames.Game>, g: LegacyGames.Game)
    requires NameOrder.StrictlySorted(LegacyGames.Names(s)) && g.name !in LegacyGames.Names(s)
    requires DistinctPaths(s)
    requires forall j :: 0 <= j < |s| ==> s[j].root != g.root && s[j].saveLocation != g.saveLocation
    ensures DistinctPaths(NameOrder.InsertIfAbsent(s, LegacyGames.NameOf, g))
  {
    NameOrder.InsertIfAbsentNew(s, LegacyGames.NameOf, g);
    var k :| 0 <= k <= |s| && NameOrder.InsertIfAbsent(s, LegacyGames.NameOf, g) == s[..k] + [g] + s[k..];
    InsertFreshKeepsDistinct(s, g, k);
  }

  /** Both paths canonicalise, the root is a directory, and root and save
      location differ. */
  predicate PathsUsable(fs: FileSystem) {
    fs.canonicalRoot.Some? && fs.canonicalSave.Some? && fs.rootIsDir && fs.canonicalRoot != fs.canonicalSave
  }

  /** Usable paths, and neither the name nor the canonical root or save
      location is registered yet. */
  predicate Unregistered(gs: seq<LegacyGames.Game>, name: string, fs: FileSystem) {
    && PathsUsable(fs)
    && name !in LegacyGames.Names(gs)
    && (forall j :: 0 <= j < |gs| ==> gs[j].root != fs.canonicalRoot.value)
    && (forall j :: 0 <= j < |gs| ==> gs[j].saveLocation != fs.canonicalSave.value)
  }

  /** The answer of `add`: the first check that fails, in source order, or
      success. Each error kind implies that its own check failed and every
      earlier one passed, so the kind reported is the first failing one. */
  function AddOutcome(games: LegacyGames.Games, name: string, fs: FileSystem): (r: Outcome<AddError>)
    reads games
    requires games.Valid()
    ensures r.Pass? <==>
      && Unregistered(games.inner, name, fs)
      && (fs.symlinkPresent || !fs.symlinkFails)
      && (fs.backupsPresent || !fs.backupsDirFails)
    ensures r == Fail(RootUnavailable) <==> fs.canonicalRoot.None?
    ensures r == Fail(SaveUnavailable) ==> fs.canonicalRoot.Some? && fs.canonicalSave.None?
    ensures r == Fail(RootNotDirectory) ==> fs.canonicalRoot.Some? && fs.canonicalSave.Some? && !fs.rootIsDir
    ensures r == Fail(SameLocations) ==> fs.rootIsDir && fs.canonicalRoot.Some? && fs.canonicalRoot == fs.canonicalSave
    ensures r == Fail(NameTaken) ==> PathsUsable(fs) && name in LegacyGames.Names(games.inner)
    ensures r == Fail(RootTaken) ==>
      && PathsUsable(fs) && name !in LegacyGames.Names(games.inner)
      && exists j :: 0 <= j < |games.inner| && games.inner[j].root == fs.canonicalRoot.value
    ensures r == Fail(SaveTaken) ==>
      && PathsUsable(fs) && name !in LegacyGames.Names(games.inner)
      && (forall j :: 0 <= j < |games.inner| ==> games.inner[j].root != fs.canonicalRoot.value)
      && exists j :: 0 <= j < |games.inner| && games.inner[j].saveLocation == fs.canonicalSave.value
    ensures r == Fail(SymlinkFailed) ==>
      Unregistered(games.inner, name, fs) && !fs.symlinkPresent && fs.symlinkFails
    ensures r == Fail(BackupsDirFailed) ==>
      && Unregistered(games.inner, name, fs) && (fs.symlinkPresent || !fs.symlinkFails)
      && !fs.backupsPresent && fs.backupsDirFails
  {
    if fs.canonicalRoot.None? then Fail(RootUnavailable)
    else if fs.canonicalSave.None? then Fail(SaveUnavailable)
    else if !fs.rootIsDir then Fail(RootNotDirectory)
    else if fs.canonicalRoot.value == fs.canonicalSave.value then Fail(SameLocations)
    else if games.GetByName(name).Ok? then Fail(NameTaken)
    else if games.GetByRoot(fs.canonicalRoot.value).Some? then Fail(RootTaken)
    else if games.GetBySave(fs.canonicalSave.value).Some? then Fail(SaveTaken)
    else if !fs.symlinkPresent && fs.symlinkFails then Fail(SymlinkFailed)
    else if !fs.backupsPresent && fs.backupsDirFails then Fail(BackupsDirFailed)
    else Pass
  }

  /** `add`: canonicalise both paths, run the checks in order, create the
      save symlink and the backups directory when missing, then push and
      store. A failing check leaves the registry and its file untouched; a
      success registers the game under the canonical paths and keeps every
      root and save location registered at most once. */
  method Add(games: LegacyGames.Games, name: string, fs: FileSystem) returns (r: Outcome<AddError>)
    requires games.Valid()
    modifies games
    ensures games.Valid()
    ensures r == old(AddOutcome(games, name, fs))
    ensures r.Fail? ==> games.inner == old(games.inner) && games.file == old(games.file)
    ensures r.Pass? ==>
      var game := LegacyGames.Game(name, fs.canonicalRoot.value, fs.canonicalSave.value);
      && games.inner == NameOrder.InsertIfAbsent(old(games.inner), LegacyGames.NameOf, game)
      && |games.inner| == |old(games.inner)| + 1 && game in games.inner
      && games.file == Storage.Stored(games.inner)
    ensures old(DistinctPaths(games.inner)) ==> DistinctPaths(games.inner)
  {
    if fs.canonicalRoot.None? {
      return Fail(RootUnavailable);
    }
    var root := fs.canonicalRoot.value;
    if fs.canonicalSave.None? {
      return Fail(SaveUnavailable);
    }
    var save := fs.canonicalSave.value;
    if !fs.rootIsDir {
      return Fail(RootNotDirectory);
    }
    if root == save {
      return Fail(SameLocations);
    }
    if games.GetByName(name).Ok? {
      return Fail(NameTaken);
    }
    if games.GetByRoot(root).Some? {
      return Fail(RootTaken);
    }
    if games.GetBySave(save).Some? {
      return Fail(SaveTaken);
    }
    if !fs.symlinkPresent && fs.symlinkFails {
      return Fail(SymlinkFailed);
    }
    if !fs.backupsPresent && fs.backupsDirFails {
      return Fail(BackupsDirFailed);
    }
    var game := LegacyGames.Game(name, root, save);
    if DistinctPaths(games.inner) {
      PushFreshKeepsDistinct(games.inner, game);
    }
    games.Push(game);
    games.Store();
    r := Pass;
  }

  datatype RemoveError = NotManaged(name: string)

  /** `remove`: an unknown name is an error and nothing is stored; a known
      one is deleted and the registry stored. */
  method Remove(games: LegacyGames.Games, name: string) returns (r: Outcome<RemoveError>)
    requires games.Valid()
    modifies games
    ensures games.Valid()
    ensures r.Fail? <==> name !in old(LegacyGames.Names(games.inner))
    ensures r.Fail? ==> r.error == NotManaged(name) && games.inner == old(games.inner) && games.file == old(games.file)
    ensures r.Pass? ==>
      && games.inner == NameOrder.RemoveKey(old(games.inner), LegacyGames.NameOf, name).rest
      && |games.inner| == |old(games.inner)| - 1
      && name !in LegacyGames.Names(games.inner)
      && games.file == Storage.Stored(games.inner)
  {
    NameOrder.RemoveKeyCases(games.inner, LegacyGames.NameOf, name);
    var removed := games.Delete(name);
    if removed.None? {
      return Fail(NotManaged(name));
    }
    games.Store();
    r := Pass;
  }

  datatype BackupError = CannotInfer(currentDir: Option<Os.Path>) | BackupsUnreadable(dir: Os.Path)

  /** The game `backup` works on: the named game when the name is given and
      registered; otherwise, a given but unknown name included, the game of
      the current directory; an error only when both fail. */
  function ResolveBackupGame(games: LegacyGames.Games, name: Option<string>, currentDir: Option<Os.Path>)
    : (r: Result<LegacyGames.Game, BackupError>)
    reads games
    requires games.Valid()
    ensures name.Some? && name.value in LegacyGames.Names(games.inner) ==>
              r.Ok? && r.value.name == name.value && r.value in games.inner
    ensures (name.None? || name.value !in LegacyGames.Names(games.inner)) ==>
              && (r.Ok? <==> games.GetByCurrentDir(currentDir).Some?)
              && (r.Ok? ==> r.value == games.GetByCurrentDir(currentDir).value)
    ensures r.Err? ==> r.error == CannotInfer(currentDir)
  {
    var byName := if name.Some? && games.GetByName(name.value).Ok? then Some(games.GetByName(name.value).value) else None;
    match Or(byName, games.GetByCurrentDir(currentDir))
    case Some(g) => Ok(g)
    case None => Err(CannotInfer(currentDir))
  }

  /** The archive `backup` creates: in the game's `gg-saves` directory, the
      name `<name>-<idx>[-<desc>]` built from the game, the number of
      entries already there and the description, with `with_extension`
      applied to it. An unreadable backups directory is an error. */
  function BackupArchive(
    games: LegacyGames.Games,
    name: Option<string>,
    desc: Option<string>,
    currentDir: Option<Os.Path>,
    entryCount: Option<nat>): (r: Result<Os.Path, BackupError>)
    reads games
    requires games.Valid()
    ensures r.Ok? <==> ResolveBackupGame(games, name, currentDir).Ok? && entryCount.Some?
    ensures ResolveBackupGame(games, name, currentDir).Err? ==> r == Err(ResolveBackupGame(games, name, currentDir).error)
    ensures r.Err? && ResolveBackupGame(games, name, currentDir).Ok? ==>
      r.error == BackupsUnreadable(LegacyGames.BackupsPath(ResolveBackupGame(games, name, currentDir).value))
    ensures r.Ok? ==>
      var g := ResolveBackupGame(games, name, currentDir).value;
      && r.value.parts != []
      && Os.Parent(r.value) == LegacyGames.BackupsPath(g)
      && Os.FileName(r.value) == BackupNaming.ArchiveFileNameAsWritten(g.name, entryCount.value, desc)
  {
    match ResolveBackupGame(games, name, currentDir)
    case Err(e) => Err(e)
    case Ok(g) =>
      var dir := LegacyGames.BackupsPath(g);
      if entryCount.None? then Err(BackupsUnreadable(dir))
      else
        var file := BackupNaming.ArchiveFileNameAsWritten(g.name, entryCount.value, desc);
        Os.JoinInside(dir, file);
        Ok(Os.Join(dir, file))
  }

  /** As written, every backup of a game called `Half.Life` without a
      description goes to the same file, `gg-saves/Half.tar.zst`, whatever
      the entry count: each backup overwrites the previous one. */
  lemma BackupArchiveOverwrites(
    games: LegacyGames.Games, name: Option<string>, currentDir: Option<Os.Path>, n1: nat, n2: nat)
    requires games.Valid()
    requires ResolveBackupGame(games, name, currentDir).Ok?
    requires ResolveBackupGame(games, name, currentDir).value.name == "Half.Life"
    ensures BackupArchive(games, name, None, currentDir, Some(n1)) == BackupArchive(games, name, None, currentDir, Some(n2))
    ensures Os.FileName(BackupArchive(games, name, None, currentDir, Some(n1)).value) == "Half.tar.zst"
  {
    BackupNaming.AsWrittenCollision(n1);
    BackupNaming.AsWrittenCollision(n2);
  }

  /** When the game's name has no '.' after its first character and the
      descriptions hold none, backups taken at different entry counts, or
      with different descriptions, go to different files. */
  lemma BackupArchivesDistinct(
    games: LegacyGames.Games, name: Option<string>, currentDir: Option<Os.Path>,
    d1: Option<string>, n1: nat, d2: Option<string>, n2: nat)
    requires games.Valid()
    requires BackupArchive(games, name, d1, currentDir, Some(n1)).Ok?
    requires BackupNaming.NoDotAfterFirst(ResolveBackupGame(games, name, currentDir).value.name)
    requires d1.Some? ==> BackupNaming.NoDot(d1.value)
    requires d2.Some? ==> BackupNaming.NoDot(d2.value)
    requires n1 != n2 || d1 != d2
    ensures BackupArchive(games, name, d2, currentDir, Some(n2)) != BackupArchive(games, name, d1, currentDir, Some(n1))
  {
    var g := ResolveBackupGame(games, name, currentDir).value;
    if BackupNaming.ArchiveFileName(g.name, n1, d1) == BackupNaming.ArchiveFileName(g.name, n2, d2) {
      BackupNaming.ArchiveFileNameInjective(g.name, n1, d1, n2, d2);
    }
  }

  /** The archive the documentation of `backup` describes: the same
      directory, named `<name>-<idx>[-<desc>].tar.zst` in full. */
  function BackupArchiveDocumented(
    games: LegacyGames.Games,
    name: Option<string>,
    desc: Option<string>,
    currentDir: Option<Os.Path>,
    entryCount: Option<nat>): (r: Result<Os.Path, BackupError>)
    reads games
    requires games.Valid()
    ensures r.Ok? <==> BackupArchive(games, name, desc, currentDir, entryCount).Ok?
    ensures r.Err? ==> r == BackupArchive(games, name, desc, currentDir, entryCount)
    ensures r.Ok? ==>
      var g := ResolveBackupGame(games, name, currentDir).value;
      && r.value.parts != []
      && Os.Parent(r.value) == LegacyGames.BackupsPath(g)
      && Os.FileName(r.value) == BackupNaming.ArchiveFileName(g.name, entryCount.value, desc)
  {
    match ResolveBackupGame(games, name, currentDir)
    case Err(e) => Err(e)
    case Ok(g) =>
      var dir := LegacyGames.BackupsPath(g);
      if entryCount.None? then Err(BackupsUnreadable(dir))
      else
        var file := BackupNaming.ArchiveFileName(g.name, entryCount.value, desc);
        Os.JoinInside(dir, file);
        Ok(Os.Join(dir, file))
  }

  /** With the documented name, backups taken at different entry counts, or
      with different descriptions, always go to different files. */
  lemma BackupArchiveDocumentedDistinct(
    games: LegacyGames.Games, name: Option<string>, currentDir: Option<Os.Path>,
    d1: Option<string>, n1: nat, d2: Option<string>, n2: nat)
    requires games.Valid()
    requires BackupArchiveDocumented(games, name, d1, currentDir, Some(n1)).Ok?
    requires n1 != n2 || d1 != d2
    ensures BackupArchiveDocumented(games, name, d2, currentDir, Some(n2))
         != BackupArchiveDocumented(games, name, d1, currentDir, Some(n1))
  {
    var g := ResolveBackupGame(games, name, currentDir).value;
    if BackupNaming.ArchiveFileName(g.name, n1, d1) == BackupNaming.ArchiveFileName(g.name, n2, d2) {
      BackupNaming.ArchiveFileNameInjective(g.name, n1, d1, n2, d2);
    }
  }
}

=== FILE: name_order.dfy ===
/** The name-sorted `Vec<Game>` that all three registry snapshots share.
    `Ord for Game` compares names only, so every snapshot keeps its records
    strictly sorted by `key` (the name) and finds them with `binary_search`.
    The operations here are generic in the record type; each snapshot passes
    its own name projection as `key`. */
module NameOrder {
  import opened Wrappers

  datatype Ordering = Less | Equal | Greater

  /** `Ord for str`: lexicographic, a proper prefix first. Rust compares the
      UTF-8 bytes, which orders strings the same way as their code points. */
  function Cmp(a: string, b: string): Ordering
    decreases |a|
  {
    if a == [] && b == [] then Equal
    else if a == [] then Less
    else if b == [] then Greater
    else if a[0] < b[0] then Less
    else if b[0] < a[0] then Greater
    else Cmp(a[1..], b[1..])
  }

  predicate Before(a: string, b: string) {
    Cmp(a, b) == Less
  }

  lemma {:induction false} CmpEqual(a: string, b: string)
    ensures Cmp(a, b) == Equal <==> a == b
    decreases |a|
  {
    if a != [] && b != [] && a[0] == b[0] {
      CmpEqual(a[1..], b[1..]);
      if a[1..] == b[1..] {
        assert a == [a[0]] + a[1..] && b == [b[0]] + b[1..];
      }
    }
  }

  lemma {:induction false} CmpFlip(a: string, b: string)
    ensures Cmp(a, b) == Less <==> Cmp(b, a) == Greater
    decreases |a|
  {
    if a != [] && b != [] && a[0] == b[0] {
      CmpFlip(a[1..], b[1..]);
    }
  }

  lemma {:induction false} BeforeTransitive(a: string, b: string, c: string)
    requires Before(a, b) && Before(b, c)
    ensures Before(a, c)
    decreases |a|
  {
    if a != [] && b != [] && c != [] && a[0] == b[0] && b[0] == c[0] {
      BeforeTransitive(a[1..], b[1..], c[1..]);
    }
  }

  lemma BeforeIrreflexive(a: string)
    ensures !Before(a, a)
  {
    CmpEqual(a, a);
  }

  /** The names of a record sequence, in order. */
  function Keys<T>(s: seq<T>, key: T -> string): (ks: seq<string>)
    ensures |ks| == |s| && forall i :: 0 <= i < |s| ==> ks[i] == key(s[i])
  {
    seq(|s|, i requires 0 <= i < |s| => key(s[i]))
  }

  ghost predicate StrictlySorted(ks: seq<string>) {
    forall i, j :: 0 <= i < j < |ks| ==> Before(ks[i], ks[j])
  }

  lemma SortedDistinct(ks: seq<string>, i: int, j: int)
    requires StrictlySorted(ks) && 0 <= i < |ks| && 0 <= j < |ks| && i != j
    ensures ks[i] != ks[j]
  {
    if i < j { BeforeIrreflexive(ks[i]); } else { BeforeIrreflexive(ks[j]); }
  }

  lemma SortedPrefixBefore(ks: seq<string>, m: nat, k: string)
    requires StrictlySorted(ks) && m < |ks| && Before(ks[m], k)
    ensures forall i :: 0 <= i <= m ==> Before(ks[i], k)
  {
    forall i | 0 <= i < m ensures Before(ks[i], k) {
      BeforeTransitive(ks[i], ks[m], k);
    }
  }

  lemma SortedSuffixAfter(ks: seq<string>, m: nat, k: string)
    requires StrictlySorted(ks) && m < |ks| && Before(k, ks[m])
    ensures forall i :: m <= i < |ks| ==> Before(k, ks[i])
  {
    forall i | m < i < |ks| ensures Before(k, ks[i]) {
      BeforeTransitive(k, ks[m], ks[i]);
    }
  }

  /** What `binary_search_by(|g| g.name.cmp(k))` answers: `Ok(i)` or `Err(i)`. */
  datatype Probe = Found(index: nat) | Vacant(index: nat)

  /** `k` lies at `i` or belongs at `i`: everything before is smaller and
      everything from `i` on is larger. */
  ghost predicate SlotFor(ks: seq<string>, k: string, i: nat) {
    i <= |ks|
    && (forall j :: 0 <= j < i ==> Before(ks[j], k))
    && (forall j :: i <= j < |ks| ==> Before(k, ks[j]))
  }

  function SearchIn(ks: seq<string>, k: string, lo: nat, hi: nat): (r: Probe)
    requires StrictlySorted(ks) && lo <= hi <= |ks|
    requires forall j :: 0 <= j < lo ==> Before(ks[j], k)
    requires forall j :: hi <= j < |ks| ==> Before(k, ks[j])
    ensures r.Found? ==> lo <= r.index < hi && ks[r.index] == k
    ensures r.Vacant? ==> lo <= r.index <= hi && SlotFor(ks, k, r.index)
    decreases hi - lo
  {
    if lo == hi then Vacant(lo)
    else
      var mid := (lo + hi) / 2;
      match Cmp(ks[mid], k)
      case Equal => CmpEqual(ks[mid], k); Found(mid)
      case Less =>
        SortedPrefixBefore(ks, mid, k);
        SearchIn(ks, k, mid + 1, hi)
      case Greater =>
        CmpFlip(k, ks[mid]);
        SortedSuffixAfter(ks, mid, k);
        SearchIn(ks, k, lo, mid)
  }

  /** Binary search by name over a strictly sorted name list: found exactly
      when the name is present, otherwise the insertion point that keeps the
      order. */
  function Search(ks: seq<string>, k: string): (r: Probe)
    requires StrictlySorted(ks)
    ensures r.Found? <==> k in ks
    ensures r.Found? ==> r.index < |ks| && ks[r.index] == k
    ensures r.Vacant? ==> SlotFor(ks, k, r.index)
  {
    var r := SearchIn(ks, k, 0, |ks|);
    if r.Vacant? then SlotExcludes(ks, k, r.index); r else r
  }

  lemma SlotExcludes(ks: seq<string>, k: string, i: nat)
    requires SlotFor(ks, k, i)
    ensures k !in ks
  {
    BeforeIrreflexive(k);
  }

  lemma InsertKeepsSorted(ks: seq<string>, k: string, i: nat)
    requires StrictlySorted(ks) && SlotFor(ks, k, i)
    ensures StrictlySorted(ks[..i] + [k] + ks[i..])
  {
    var r := ks[..i] + [k] + ks[i..];
    forall a, b | 0 <= a < b < |r| ensures Before(r[a], r[b]) {
      if b < i || a > i {
      } else if a < i && b == i {
      } else if a == i {
      } else {
        BeforeTransitive(r[a], k, r[b]);
      }
    }
  }

  lemma RemoveKeepsSorted(ks: seq<string>, i: nat)
    requires StrictlySorted(ks) && i < |ks|
    ensures StrictlySorted(ks[..i] + ks[i + 1..])
  {
    var r := ks[..i] + ks[i + 1..];
    forall a, b | 0 <= a < b < |r| ensures Before(r[a], r[b]) {
      var a' := if a < i then a else a + 1;
      var b' := if b < i then b else b + 1;
      assert r[a] == ks[a'] && r[b] == ks[b'];
    }
  }

  lemma KeysInsert<T>(s: seq<T>, key: T -> string, i: nat, x: T)
    requires i <= |s|
    ensures Keys(s[..i] + [x] + s[i..], key) == Keys(s, key)[..i] + [key(x)] + Keys(s, key)[i..]
  {
  }

  lemma KeysRemove<T>(s: seq<T>, key: T -> string, i: nat)
    requires i < |s|
    ensures Keys(s[..i] + s[i + 1..], key) == Keys(s, key)[..i] + Keys(s, key)[i + 1..]
  {
  }

  lemma KeysUpdate<T>(s: seq<T>, key: T -> string, i: nat, x: T)
    requires i < |s| && key(x) == key(s[i])
    ensures Keys(s[i := x], key) == Keys(s, key)
  {
  }

  /** `binary_search(&x)` then `insert` only on `Err`: the insert-if-absent
      `push` of the two older snapshots. */
  function InsertIfAbsent<T>(s: seq<T>, key: T -> string, x: T): (r: seq<T>)
    requires StrictlySorted(Keys(s, key))
    ensures StrictlySorted(Keys(r, key))
  {
    match Search(Keys(s, key), key(x))
    case Found(_) => s
    case Vacant(i) =>
      KeysInsert(s, key, i, x);
      InsertKeepsSorted(Keys(s, key), key(x), i);
      s[..i] + [x] + s[i..]
  }

  /** A name that is already registered leaves the registry untouched, even
      if every other field of the pushed record differs. */
  lemma InsertIfAbsentPresent<T>(s: seq<T>, key: T -> string, x: T)
    requires StrictlySorted(Keys(s, key)) && key(x) in Keys(s, key)
    ensures InsertIfAbsent(s, key, x) == s
  {
  }

  /** A new name is inserted at its sorted place; every old record keeps
      its relative order and the length grows by one. */
  lemma InsertIfAbsentNew<T>(s: seq<T>, key: T -> string, x: T)
    requires StrictlySorted(Keys(s, key)) && key(x) !in Keys(s, key)
    ensures var r := InsertIfAbsent(s, key, x);
      && |r| == |s| + 1
      && (exists i :: 0 <= i <= |s| && r == s[..i] + [x] + s[i..] && SlotFor(Keys(s, key), key(x), i))
      && multiset(r) == multiset(s) + multiset{x}
      && Keys(r, key) != [] && key(x) in Keys(r, key)
  {
    var r := InsertIfAbsent(s, key, x);
    var i := Search(Keys(s, key), key(x)).index;
    assert r == s[..i] + [x] + s[i..];
    assert s == s[..i] + s[i..];
    assert Keys(r, key)[i] == key(x);
  }

  /** What `delete` returns together with the records that remain. */
  datatype Removal<T> = Removal(removed: Option<T>, rest: seq<T>)

  /** `binary_search_by` on the name, then `Vec::remove` on `Ok`. */
  function RemoveKey<T>(s: seq<T>, key: T -> string, k: string): (r: Removal<T>)
    requires StrictlySorted(Keys(s, key))
    ensures StrictlySorted(Keys(r.rest, key))
  {
    match Search(Keys(s, key), k)
    case Found(i) =>
      KeysRemove(s, key, i);
      RemoveKeepsSorted(Keys(s, key), i);
      Removal(Some(s[i]), s[..i] + s[i + 1..])
    case Vacant(_) => Removal(None, s)
  }

  /** In a list sorted by key, removing one element removes its key. */
  lemma RemovedKeyGone<T>(s: seq<T>, key: T -> string, i: nat)
    requires StrictlySorted(Keys(s, key)) && i < |s|
    ensures key(s[i]) !in Keys(s[..i] + s[i + 1..], key)
  {
    var ks := Keys(s, key);
    var rest := s[..i] + s[i + 1..];
    forall j | 0 <= j < |rest| ensures key(rest[j]) != key(s[i]) {
      var j' := if j < i then j else j + 1;
      assert rest[j] == s[j'];
      SortedDistinct(ks, i, j');
    }
  }

  /** Deleting a registered name returns exactly that record, removes it and
      nothing else, and afterwards the name is gone; deleting an unknown name
      returns nothing and changes nothing. */
  lemma RemoveKeyCases<T>(s: seq<T>, key: T -> string, k: string)
    requires StrictlySorted(Keys(s, key))
    ensures var r := RemoveKey(s, key, k);
      && (r.removed.Some? <==> k in Keys(s, key))
      && (r.removed.None? ==> r.rest == s)
      && (r.removed.Some? ==>
            && key(r.removed.value) == k
            && k !in Keys(r.rest, key)
            && |r.rest| == |s| - 1
            && (exists i :: 0 <= i < |s| && s[i] == r.removed.value && r.rest == s[..i] + s[i + 1..]))
  {
    var ks := Keys(s, key);
    var r := RemoveKey(s, key, k);
    match Search(ks, k)
    case Found(i) =>
      assert r == Removal(Some(s[i]), s[..i] + s[i + 1..]);
      RemovedKeyGone(s, key, i);
      assert s[i] == r.removed.value && r.rest == s[..i] + s[i + 1..];
    case Vacant(_) =>
  }

  /** `binary_search_by` on the name, then indexing: the lookup
      `get_by_name`. */
  function LookupKey<T>(s: seq<T>, key: T -> string, k: string): (r: Option<T>)
    requires StrictlySorted(Keys(s, key))
    ensures r.Some? <==> k in Keys(s, key)
    ensures r.Some? ==> r.value in s && key(r.value) == k
  {
    match Search(Keys(s, key), k)
    case Found(i) => Some(s[i])
    case Vacant(_) => None
  }

  /** The index of the first element satisfying `p`, scanning from `from`. */
  function FirstIndexFrom<T>(s: seq<T>, p: T -> bool, from: nat): (r: Option<nat>)
    requires from <= |s|
    ensures r.Some? ==> from <= r.value < |s| && p(s[r.value]) && forall j :: from <= j < r.value ==> !p(s[j])
    ensures r.None? ==> forall j :: from <= j < |s| ==> !p(s[j])
    decreases |s| - from
  {
    if from == |s| then None
    else if p(s[from]) then Some(from)
    else FirstIndexFrom(s, p, from + 1)
  }

  /** `iter().find(p)`: the first element in sequence order satisfying `p`. */
  function FindFirst<T>(s: seq<T>, p: T -> bool): (r: Option<T>)
    ensures r.None? <==> forall j :: 0 <= j < |s| ==> !p(s[j])
    ensures r.Some? ==> exists i :: 0 <= i < |s| && s[i] == r.value && p(s[i]) && forall j :: 0 <= j < i ==> !p(s[j])
  {
    match FirstIndexFrom(s, p, 0)
    case None => None
    case Some(i) => Some(s[i])
  }
}

=== FILE: os.dfy ===
/** The operating-system values the registry handles as data: paths and
    the shell invocations it builds (it never runs them here). */
module Os {
  import Text

  /** A path as Rust's `Path` compares it: by its components, so `/a//b/`
      and `/a/b` are the same path. */
  datatype Path = Path(absolute: bool, parts: seq<string>)

  /** `Path::join` with one relative component `c` (no separator in it). */
  function Join(p: Path, c: string): Path {
    Path(p.absolute, p.parts + [c])
  }

  /** `Path::parent` of a path that has a last component. */
  function Parent(p: Path): Path
    requires p.parts != []
  {
    Path(p.absolute, p.parts[..|p.parts| - 1])
  }

  /** `Path::file_name`. */
  function FileName(p: Path): string
    requires p.parts != []
  {
    p.parts[|p.parts| - 1]
  }

  /** A joined path lies directly inside the path it was joined to. */
  lemma JoinInside(p: Path, c: string)
    ensures Join(p, c).parts != [] && Parent(Join(p, c)) == p && FileName(Join(p, c)) == c
  {
    assert (p.parts + [c])[..|p.parts|] == p.parts;
  }

  /** `Path::display`: the components separated by `/`. */
  function Display(p: Path): string {
    (if p.absolute then "/" else "") + Text.Join(p.parts, "/")
  }

  /** A `std::process::Command` before it is spawned: program and arguments. */
  datatype Command = Command(program: string, args: seq<string>)
}

=== FILE: storage.dfy ===
/** The registry file, kept abstract: serde's JSON text is not modelled,
    only whether the file is empty and which records it holds. */
module Storage {

  /** Zero bytes, or a JSON array holding these records. */
  datatype File<T> = ZeroLength | Json(records: seq<T>)

  /** `store`: `set_len(0)`, then, unless the registry is empty, the array. */
  function Stored<T>(records: seq<T>): File<T> {
    if records == [] then ZeroLength else Json(records)
  }

  /** `load`: a zero-length file is the empty registry, anything else is
      parsed as the array of records. */
  function Loaded<T>(f: File<T>): seq<T> {
    match f
    case ZeroLength => []
    case Json(records) => records
  }

  /** An empty registry is stored as a zero-length file and nothing else is,
      and loading what was stored gives the same records back. */
  lemma StoreThenLoad<T>(records: seq<T>)
    ensures Stored(records).ZeroLength? <==> records == []
    ensures Loaded(Stored(records)) == records
  {
  }
}

=== FILE: text.dfy ===
/** The string operations of Rust's standard library that the registry's
    command templates and backup names are built from: `join`, `str::replace`,
    `str::find` followed by `replace_range`, and decimal formatting with a
    zero-filled width. Strings are `seq<char>`. */
module Text {
  import opened Wrappers

  /** `pat` occurs in `s` starting at index `i`. */
  predicate MatchAt(s: string, pat: string, i: nat) {
    i + |pat| <= |s| && s[i..i + |pat|] == pat
  }

  ghost predicate Contains(s: string, pat: string) {
    exists i: nat :: MatchAt(s, pat, i)
  }

  /** `[String]::join(sep)`: the parts in order, `sep` between neighbours. */
  function Join(parts: seq<string>, sep: string): (r: string)
    ensures |parts| == 0 ==> r == ""
    ensures |parts| > 0 ==> |parts[0]| <= |r| && r[..|parts[0]|] == parts[0]
    decreases |parts|
  {
    if |parts| == 0 then ""
    else if |parts| == 1 then parts[0]
    else parts[0] + sep + Join(parts[1..], sep)
  }

  /** `str::replace`: scanning from the left, every occurrence of `pat` that
      does not overlap an earlier replaced one becomes `rep`; the inserted
      text is not scanned again. */
  function ReplaceAll(s: string, pat: string, rep: string): (r: string)
    requires |pat| > 0
    ensures |rep| == |pat| ==> |r| == |s|
    ensures |rep| <= |pat| ==> |r| <= |s|
    decreases |s|
  {
    if |s| < |pat| then s
    else if s[..|pat|] == pat then rep + ReplaceAll(s[|pat|..], pat, rep)
    else [s[0]] + ReplaceAll(s[1..], pat, rep)
  }

  /** A string that starts with the pattern: that occurrence is replaced
      and the scan resumes right after it. */
  lemma ReplaceAllLeadingMatch(pat: string, rest: string, rep: string)
    requires |pat| > 0
    ensures ReplaceAll(pat + rest, pat, rep) == rep + ReplaceAll(rest, pat, rep)
  {
    assert (pat + rest)[..|pat|] == pat && (pat + rest)[|pat|..] == rest;
  }

  /** A first character that cannot start the pattern is kept as it is. */
  lemma ReplaceAllLeadingChar(c: char, rest: string, pat: string, rep: string)
    requires |pat| > 0 && c != pat[0]
    ensures ReplaceAll([c] + rest, pat, rep) == [c] + ReplaceAll(rest, pat, rep)
  {
    assert ([c] + rest)[1..] == rest;
    if |rest| + 1 >= |pat| {
      assert ([c] + rest)[..|pat|][0] == c;
    }
  }

  /** `ReplaceAllLeadingChar` for a string split as `[c] + tail + pat + rest`. */
  lemma KeepLeadingChar(c: char, tail: string, pat: string, rest: string, rep: string)
    requires |pat| > 0 && c != pat[0]
    requires ReplaceAll(tail + pat + rest, pat, rep) == tail + rep + ReplaceAll(rest, pat, rep)
    ensures ReplaceAll([c] + tail + pat + rest, pat, rep) == [c] + tail + rep + ReplaceAll(rest, pat, rep)
  {
    assert [c] + tail + pat + rest == [c] + (tail + pat + rest);
    ReplaceAllLeadingChar(c, tail + pat + rest, pat, rep);
    assert [c] + tail + rep + ReplaceAll(rest, pat, rep) == [c] + (tail + rep + ReplaceAll(rest, pat, rep));
  }

  /** A prefix in which the pattern cannot start is kept, the pattern right
      after it is replaced, and the scan goes on after that occurrence. */
  lemma {:induction false} ReplaceAllAfterPlainPrefix(prefix: string, pat: string, rest: string, rep: string)
    requires |pat| > 0 && forall i :: 0 <= i < |prefix| ==> prefix[i] != pat[0]
    ensures ReplaceAll(prefix + pat + rest, pat, rep) == prefix + rep + ReplaceAll(rest, pat, rep)
    decreases |prefix|
  {
    if prefix == [] {
      ReplaceAllLeadingMatch(pat, rest, rep);
      assert [] + pat + rest == pat + rest;
    } else {
      var tail := prefix[1..];
      ReplaceAllAfterPlainPrefix(tail, pat, rest, rep);
      KeepLeadingChar(prefix[0], tail, pat, rest, rep);
      assert prefix == [prefix[0]] + tail;
    }
  }

  /** The pieces of `s` that lie between the occurrences ReplaceAll replaces. */
  function Split(s: string, pat: string): (pieces: seq<string>)
    requires |pat| > 0
    ensures |pieces| >= 1
    decreases |s|
  {
    if |s| < |pat| then [s]
    else if s[..|pat|] == pat then [""] + Split(s[|pat|..], pat)
    else
      var rest := Split(s[1..], pat);
      [[s[0]] + rest[0]] + rest[1..]
  }

  lemma JoinAfterEmpty(ps: seq<string>, sep: string)
    requires |ps| >= 1
    ensures Join([""] + ps, sep) == sep + Join(ps, sep)
  {
    assert ([""] + ps)[1..] == ps;
  }

  lemma JoinPrepend(c: char, ps: seq<string>, sep: string)
    requires |ps| >= 1
    ensures Join([[c] + ps[0]] + ps[1..], sep) == [c] + Join(ps, sep)
  {
    var qs := [[c] + ps[0]] + ps[1..];
    if |ps| == 1 {
      assert qs == [[c] + ps[0]];
    } else {
      assert qs[1..] == ps[1..];
    }
  }

  lemma JoinStartsWithFirst(ps: seq<string>, sep: string)
    requires |ps| >= 1
    ensures |ps[0]| <= |Join(ps, sep)| && Join(ps, sep)[..|ps[0]|] == ps[0]
  {
  }

  lemma MatchInTail(c: char, t: string, pat: string, i: nat)
    requires i > 0
    ensures MatchAt([c] + t, pat, i) <==> MatchAt(t, pat, i - 1)
  {
    if i + |pat| <= |[c] + t| {
      assert ([c] + t)[i..i + |pat|] == t[i - 1..i - 1 + |pat|];
    }
  }

  lemma MatchInPrefix(p: string, s: string, pat: string)
    requires |p| <= |s| && s[..|p|] == p
    ensures MatchAt(p, pat, 0) ==> MatchAt(s, pat, 0)
  {
    if MatchAt(p, pat, 0) {
      assert s[..|pat|] == p[..|pat|];
    }
  }

  /** Split is the inverse of joining with the pattern, and no piece holds
      the pattern: these are the pieces ReplaceAll glues back together. */
  lemma {:induction false} SplitPieces(s: string, pat: string)
    requires |pat| > 0
    ensures Join(Split(s, pat), pat) == s
    ensures forall k :: 0 <= k < |Split(s, pat)| ==> !Contains(Split(s, pat)[k], pat)
    decreases |s|
  {
    var pieces := Split(s, pat);
    if |s| < |pat| {
      assert pieces == [s];
    } else if s[..|pat|] == pat {
      var tail := s[|pat|..];
      SplitPieces(tail, pat);
      var rest := Split(tail, pat);
      assert pieces == [""] + rest;
      JoinAfterEmpty(rest, pat);
      assert s == pat + tail;
      forall k | 0 <= k < |pieces| ensures !Contains(pieces[k], pat) {
        if k > 0 {
          assert pieces[k] == rest[k - 1];
        }
      }
    } else {
      var tail := s[1..];
      SplitPieces(tail, pat);
      var rest := Split(tail, pat);
      var first := [s[0]] + rest[0];
      assert pieces == [first] + rest[1..];
      JoinPrepend(s[0], rest, pat);
      assert s == [s[0]] + tail;
      JoinStartsWithFirst(rest, pat);
      forall k | 0 <= k < |pieces| ensures !Contains(pieces[k], pat) {
        if k == 0 {
          forall i: nat ensures !MatchAt(first, pat, i) {
            if i == 0 {
              MatchInPrefix(first, s, pat);
            } else {
              MatchInTail(s[0], rest[0], pat, i);
            }
          }
        } else {
          assert pieces[k] == rest[k];
        }
      }
    }
  }

  /** `str::replace` is splitting at the pattern and joining with the replacement. */
  lemma {:induction false} ReplaceAllJoinsSplit(s: string, pat: string, rep: string)
    requires |pat| > 0
    ensures ReplaceAll(s, pat, rep) == Join(Split(s, pat), rep)
    decreases |s|
  {
    if |s| < |pat| {
    } else if s[..|pat|] == pat {
      ReplaceAllJoinsSplit(s[|pat|..], pat, rep);
      JoinAfterEmpty(Split(s[|pat|..], pat), rep);
    } else {
      ReplaceAllJoinsSplit(s[1..], pat, rep);
      JoinPrepend(s[0], Split(s[1..], pat), rep);
    }
  }

  /** A string without the pattern is left as it is. */
  lemma {:induction false} ReplaceAllAbsent(s: string, pat: string, rep: string)
    requires |pat| > 0 && !Contains(s, pat)
    ensures ReplaceAll(s, pat, rep) == s
    decreases |s|
  {
    if |s| >= |pat| {
      assert !MatchAt(s, pat, 0);
      if Contains(s[1..], pat) {
        var i: nat :| MatchAt(s[1..], pat, i);
        assert s[1..][i..i + |pat|] == s[i + 1..i + 1 + |pat|];
        assert MatchAt(s, pat, i + 1);
      }
      ReplaceAllAbsent(s[1..], pat, rep);
    }
  }

  function FindFrom(s: string, pat: string, k: nat): (r: Option<nat>)
    requires |pat| > 0
    requires forall j: nat :: j < k ==> !MatchAt(s, pat, j)
    ensures r.Some? ==> MatchAt(s, pat, r.value) && forall j: nat :: j < r.value ==> !MatchAt(s, pat, j)
    ensures r.None? ==> forall j: nat :: !MatchAt(s, pat, j)
    decreases |s| - k
  {
    if k + |pat| > |s| then None
    else if s[k..k + |pat|] == pat then Some(k)
    else FindFrom(s, pat, k + 1)
  }

  /** `str::find`: the index of the first occurrence of `pat`, if any. */
  function Find(s: string, pat: string): (r: Option<nat>)
    requires |pat| > 0
    ensures r.Some? ==> MatchAt(s, pat, r.value) && forall j: nat :: j < r.value ==> !MatchAt(s, pat, j)
    ensures r.None? <==> !Contains(s, pat)
  {
    FindFrom(s, pat, 0)
  }

  /** `i` is where `pat` first occurs in `s`. */
  predicate FirstMatch(s: string, pat: string, i: nat) {
    MatchAt(s, pat, i) && forall j: nat :: j < i ==> !MatchAt(s, pat, j)
  }

  /** The first occurrence is the one `find` reports. */
  lemma FirstMatchIsFind(s: string, pat: string)
    requires |pat| > 0
    ensures forall i: nat :: FirstMatch(s, pat, i) ==> Find(s, pat) == Some(i)
  {
    forall i: nat | FirstMatch(s, pat, i) ensures Find(s, pat) == Some(i) {
      assert Find(s, pat).Some?;
    }
  }

  /** `find` followed by `replace_range`: only the first occurrence of `pat`
      becomes `rep`; later occurrences stay. */
  function ReplaceFirst(s: string, pat: string, rep: string): (r: string)
    requires |pat| > 0
    ensures !Contains(s, pat) ==> r == s
    ensures forall i: nat :: FirstMatch(s, pat, i) ==> r == s[..i] + rep + s[i + |pat|..]
  {
    FirstMatchIsFind(s, pat);
    match Find(s, pat)
    case None => s
    case Some(i) => s[..i] + rep + s[i + |pat|..]
  }

  /** `find` + `replace_range` applied to each string of a list. */
  function ReplaceFirstEach(cs: seq<string>, pat: string, rep: string): (r: seq<string>)
    requires |pat| > 0
    ensures |r| == |cs|
    ensures forall k :: 0 <= k < |r| && !Contains(cs[k], pat) ==> r[k] == cs[k]
    ensures forall k, i: nat :: 0 <= k < |r| && FirstMatch(cs[k], pat, i) ==> r[k] == cs[k][..i] + rep + cs[k][i + |pat|..]
  {
    var r := seq(|cs|, k requires 0 <= k < |cs| => ReplaceFirst(cs[k], pat, rep));
    assert forall k :: 0 <= k < |cs| ==> r[k] == ReplaceFirst(cs[k], pat, rep);
    r
  }

  // ---------------------------------------------------------------------
  // Decimal formatting

  predicate IsDigits(s: string) {
    forall i :: 0 <= i < |s| ==> '0' <= s[i] <= '9'
  }

  function Digit(d: nat): (c: char)
    requires d < 10
  {
    ('0' as int + d) as char
  }

  /** The number a string of decimal digits denotes. */
  function DigitsValue(s: string): nat
    requires IsDigits(s)
    decreases |s|
  {
    if s == [] then 0 else DigitsValue(s[..|s| - 1]) * 10 + (s[|s| - 1] as int - '0' as int)
  }

  /** `{}` formatting of an unsigned integer: its decimal digits, without
      leading zeros. */
  function Decimal(n: nat): (s: string)
    ensures |s| >= 1 && IsDigits(s)
    ensures s[0] == '0' ==> n == 0
    decreases n
  {
    if n < 10 then [Digit(n)] else Decimal(n / 10) + [Digit(n % 10)]
  }

  lemma {:induction false} DecimalRoundTrip(n: nat)
    ensures DigitsValue(Decimal(n)) == n
    decreases n
  {
    if n >= 10 {
      DecimalRoundTrip(n / 10);
      var s := Decimal(n);
      assert s[..|s| - 1] == Decimal(n / 10);
    }
  }

  function Zeros(k: nat): (z: string)
    ensures |z| == k && forall i :: 0 <= i < k ==> z[i] == '0'
  {
    seq(k, _ => '0')
  }

  /** `{:0>width}`: right-aligned in a field of `width` filled with '0';
      a longer string is never cut. */
  function PadZeros(s: string, width: nat): (r: string)
    ensures |r| == if |s| < width then width else |s|
    ensures r[|r| - |s|..] == s
    ensures forall i :: 0 <= i < |r| - |s| ==> r[i] == '0'
  {
    if |s| < width then Zeros(width - |s|) + s else s
  }

  /** Leading zeros do not change the value of a digit string. */
  lemma {:induction false} LeadingZeros(k: nat, s: string)
    requires IsDigits(s)
    ensures IsDigits(Zeros(k) + s) && DigitsValue(Zeros(k) + s) == DigitsValue(s)
    decreases |s| + k
  {
    var t := Zeros(k) + s;
    if s == [] {
      if k > 0 {
        assert t[..|t| - 1] == Zeros(k - 1);
        LeadingZeros(k - 1, []);
        assert Zeros(k - 1) + [] == Zeros(k - 1);
      }
    } else {
      assert t[..|t| - 1] == Zeros(k) + s[..|s| - 1];
      LeadingZeros(k, s[..|s| - 1]);
    }
  }
}

=== FILE: wrappers.dfy ===
/** Option, Result and Outcome: the model's stand-ins for Rust's `Option<T>`,
    `Result<T, E>` and `Result<(), E>`. */
module Wrappers {

  datatype Option<+T> = None | Some(value: T) {

    /** `Option::unwrap_or`. */
    function UnwrapOr(default: T): T {
      if Some? then value else default
    }
  }

  /** `a.or(b)`: `a` when it holds a value, otherwise `b`. */
  function Or<T>(a: Option<T>, b: Option<T>): Option<T> {
    if a.Some? then a else b
  }

  datatype Result<+T, +E> = Ok(value: T) | Err(error: E)

  /** The result of an operation that yields nothing but may fail. */
  datatype Outcome<+E> = Pass | Fail(error: E)
}
